=== FILE: README.md ===
# nest-starter core in Dafny

This project models the reusable core of a NestJS starter kit. It has five parts:

- **Query composer** (`PaginationService`). It turns pagination parameters into a store query and derives page metadata. It handles the soft-delete flags, ordering directives, nested case-insensitive search and the skip/take window.
- **Generic CRUD engine** (`BaseCRUDService`). Each operation routes to the model's delegate, or to the transaction-aware client when the request context holds a transaction. It normalises every store rejection into one fixed 400 error per operation.
- **Response interceptor**. It wraps handler results in the `{error, statusCode, message, data}` envelope and maps thrown errors to the error envelope.
- **Slug builder** (`SlugService`). It builds `slugify` and `slugifyObject`.
- **Authorization guard**. It rejects requests without a user, and users whose role mentions `ADMIN`.

The JavaScript values these pass around are an immutable tree, `Values.Json`. Its rules for truthiness, `||`, `?.`, object spread and array spread are written out explicitly. A thrown error is the `Err` side of `Exceptions.Result`.

The store is not modelled. A store call is recorded as a `Store.Call`: its target, its operation and its argument object. What the store answers is a parameter, either `Returns(value)` or `Throws(error)`. A model is thus a pure function from its inputs and the store's answers to the calls made and the result.

Modules:

| file | module | models |
|---|---|---|
| text.dfy | `Text` | `split`/`join` on one character, `includes`, decimal text |
| values.dfy | `Values` | JavaScript values and the language rules used |
| exceptions.dfy | `Exceptions` | `HttpException`, runtime TypeErrors, `Result` |
| store.dfy | `Store` | store calls and outcomes |
| pagination.dfy | `Pagination` | `src/commons/services/pagination.service.ts` |
| crud.dfy | `Crud` | `src/commons/services/base-crud.service.ts` |
| response.dfy | `Response` | `src/commons/interceptors/response.interceptor.ts` |
| slug.dfy | `Slug` | `src/commons/services/slug.service.ts` |
| authorization.dfy | `Authorization` | `src/commons/guards/authorization.guard.ts` |

## Behaviour as the code has it

A plain-language description of the starter kit would lead a reader to expect something different in the following cases. The model follows the code in each.

- **`searchables` that is an empty array.** An empty array is truthy. A search term with `searchables: []` therefore still attaches `OR: []` to the filter, and the store reads that as "match nothing" (`Pagination.Searching`).
- **Order items without `:`.** Such an item produces a directive whose direction is `undefined`; no error is raised (`Pagination.DirectiveWithoutDirection`).
- **The two soft-delete flags.** `is_deleted_too` and `is_deleted_only` are applied one after the other, and `is_deleted_only` wins when both are set. Whenever `is_deleted_too` is present at all, even as `false`, `deleted_at` of the filter is read. So a missing filter throws a TypeError (`Pagination.ApplySoftDelete`).
- **The next-page rule.** "There is a next page" is computed from `skip + rows < totalCount`. With a store whose page and count agree, this equals "the page is before the last". That holds with and without `load_previous_pages`, because the window ends at `page * limit` in both modes (`Pagination.NextPageIffBeforeLast`).
- **The current page.** `currentPage` echoes the raw `page` parameter. Without one it is `undefined`, although the first page is fetched (`Pagination.CurrentPageEchoesParameter`).
- **Soft-delete and restore without a context.** These two read `request.transaction` without optional chaining. With no request context they throw a TypeError before any store call. Create, update and delete treat a missing context as direct mode (`Crud.MissingContextAsymmetry`).
- **`genericFindAll` failures.** `genericFindAll` returns the `paginate` promise without awaiting it, so its `catch` never runs. Failures pass through as TypeErrors and never become "Error fetching records" (`Crud.GenericFindAll`).
- **Guard rejections bypass the response envelope.** The interceptor is registered globally (src/app.module.ts:26-29), and the framework runs guards before interceptors. The guard's two 403 exceptions are therefore never seen by the interceptor's `catchError`. They reach the client in the framework's default error body, not in the `{error, statusCode, message, data}` envelope. The model states only that the guard throws them (`Authorization.CanActivate`).
- **The role check.** The guard rejects a role that *contains* `ADMIN`, `SUPERADMIN` included. The test is case-sensitive, and on a role array it compares whole elements (`Authorization.*`).

## Model

| member | source | states |
|---|---|---|
| `Text.Split` | src/commons/services/pagination.service.ts:106-109 | `split` on one character: one more part than separators, no part contains the separator, and joining the parts with it gives the text back |
| `Text.SplitUnique` | src/commons/services/pagination.service.ts:106-109 | the parts of a split are the only separator-free parts that join to the text |
| `Text.SplitJoin` | src/commons/services/pagination.service.ts:106-109 | splitting a join of separator-free parts gives the parts back |
| `Text.Includes` | src/commons/guards/authorization.guard.ts:23 | `includes` holds exactly when the needle occurs at some position |
| `Text.NatToDecimal` | src/commons/services/slug.service.ts:9 | the decimal text of a number is non-empty and made of digits; it starts with `0` only for zero itself, so it has no leading zeros, and it is one digit exactly below 10 |
| `Text.IntToDecimal` | src/commons/services/slug.service.ts:9 | a leading `-` exactly for negative numbers, followed by digits whose decimal value is the magnitude; no leading zeros, before or after the `-` |
| `Values.Spread` | src/commons/services/pagination.service.ts:25-30 | `{...x}` copies an object's fields, keys an array's elements by their decimal index with no other keys, and keys a string's characters by their decimal index, each as a one-character string, with no other keys, and gives `{}` for values without own properties |
| `Values.Iterate` | src/commons/services/pagination.service.ts:35 | `[...x]` yields an array's elements or a string's characters as one-character strings, works exactly for arrays and strings, and throws otherwise |
| `Values.Nest` | src/commons/services/pagination.service.ts:113-123 | a chain of single-key objects keyed by the path's first segment |
| `Values.DescendNest` | src/commons/services/pagination.service.ts:113-123 | walking a nest along its own path reaches its leaf |
| `Values.NestInjective` | src/commons/services/pagination.service.ts:113-123 | nests of equal depth are equal only when their paths and leaves are |
| `Pagination.ApplySoftDelete` | src/commons/services/pagination.service.ts:20-31 | fails exactly when the flag is present and the filter is missing; `is_deleted_only` sets `deleted_at: {not: null}` and keeps every other key; a true `is_deleted_too` drops a truthy `deleted_at` and keeps the rest; otherwise the filter is unchanged |
| `Pagination.GenerateOrderBy` | src/commons/services/pagination.service.ts:103-107 | one directive per comma-separated item |
| `Pagination.Directive` | src/commons/services/pagination.service.ts:107-124 | a chain of single-key objects along the `.`-segments of the text before the first `:`; walking it along the segments reaches the text between the first and the second `:`, or `undefined` when there is no `:` |
| `Pagination.DirectiveOfPath` | src/commons/services/pagination.service.ts:108-123 | `p1.….pn:dir`, with any further `:`-parts after it, becomes `{p1: {… {pn: dir}}}`: the parts after the second `:` are dropped |
| `Pagination.DirectiveWithoutDirection` | src/commons/services/pagination.service.ts:108-111 | an item with no `:` gets an `undefined` direction |
| `Pagination.OrderByItems` | src/commons/services/pagination.service.ts:106-107 | the i-th directive is the directive of the i-th item, in order |
| `Pagination.TwoItems` | src/commons/services/pagination.service.ts:106-107 | two comma-free items give exactly their two directives |
| `Pagination.FlatDirective` | src/commons/services/pagination.service.ts:110-111 | a one-segment item gives a one-key object |
| `Pagination.NestedDirective` | src/commons/services/pagination.service.ts:112-123 | a two-segment item gives a two-level chain |
| `Pagination.OrderByExample` | src/commons/services/pagination.service.ts:103-128 | `a:d1,b.c:d2` gives `[{a: d1}, {b: {c: d2}}]` |
| `Pagination.ComposeOrder` | src/commons/services/pagination.service.ts:33-36 | the parsed directives are appended after the elements of the base ordering, or after its characters when it is a string; failure exactly when an order is given and the base ordering is not iterable |
| `Pagination.NestedSearchObject` | src/commons/services/pagination.service.ts:130-143 | a single-key chain whose walk along the path reaches `{contains, mode: 'insensitive'}` |
| `Pagination.NestedSearchIsNest` | src/commons/services/pagination.service.ts:130-143 | the recursive search builder equals the nest of the path around the condition |
| `Pagination.SearchConditions` | src/commons/services/pagination.service.ts:165-168 | one condition per searchable |
| `Pagination.SearchConditionsOfPaths` | src/commons/services/pagination.service.ts:165-168 | each dotted searchable becomes the chain of its segments around the condition |
| `Pagination.FlatSearch` | src/commons/services/pagination.service.ts:131-137 | a one-segment searchable gives a one-key condition |
| `Pagination.NestedSearch` | src/commons/services/pagination.service.ts:139-142 | a two-segment searchable gives a two-level condition |
| `Pagination.SearchExample` | src/commons/services/pagination.service.ts:163-170 | `name` and `category.name` give the two expected conditions |
| `Pagination.MergeOr` | src/commons/services/pagination.service.ts:145-161 | a falsy filter or an empty clause gives the filter back; otherwise every non-`OR` key is kept; `OR` is attached, or the two spreads are concatenated filter-first, a string giving its characters; failure only when the filter already has an `OR` |
| `Pagination.GenerateSearchQuery` | src/commons/services/pagination.service.ts:163-174 | a falsy filter comes back unchanged; otherwise every other key is kept and the conditions become `OR` when the filter's `OR` is falsy, or are appended after the elements of a truthy `OR`, or after its characters when it is a string; failure exactly when the filter's `OR` is truthy and cannot be spread |
| `Pagination.Compose` | src/commons/services/pagination.service.ts:11-44 | fails exactly when the soft-delete filter fails, the ordering fails, or the search is requested on a filter that was built and the search fails; every failure is a TypeError; defaults 10 and 1 for falsy limit and page; the window is `(0, page*limit)` with `load_previous_pages`, else `((page-1)*limit, limit)`; ordering, soft-delete and search applied as above |
| `Pagination.PagesTile` | src/commons/services/pagination.service.ts:42-44 | without `load_previous_pages`, moving to the next page shifts the window by exactly one page of the same size, so consecutive pages neither overlap nor leave gaps |
| `Pagination.PreviousPagesWindow` | src/commons/services/pagination.service.ts:42-44 | with `load_previous_pages` the window starts at 0 and ends where the single-page window for the same page ends |
| `Pagination.CeilDiv` | src/commons/services/pagination.service.ts:96 | `Math.ceil(a / b)` is the least multiple count covering `a` |
| `Pagination.PagedView` | src/commons/services/pagination.service.ts:90-98 | previous page iff page > 1, next page iff rows remain after the window, and `totalPages` is `Math.ceil(totalCount / limit)`: for a positive limit the least count of pages holding `totalCount`, for a negative limit the matching bound with the inequalities reversed |
| `Pagination.Paginate` | src/commons/services/pagination.service.ts:46-100 | fails exactly when composing fails; the first call is a `findMany` on the model's delegate carrying the composed filter, the composed ordering and the caller's `include`; "all" mode sends only those three keys and reports one page of every row; otherwise the window, `select` only without `include`, a `count` on the same filter, and the page metadata of `PagedView` |
| `Pagination.NextPageIffBeforeLast` | src/commons/services/pagination.service.ts:42-44 | with a consistent store, a next page is announced exactly when the page is before the last, in both window modes |
| `Pagination.CeilBound` | src/commons/services/pagination.service.ts:93-96 | a page ends before the total exactly when it precedes the page count |
| `Pagination.CurrentPageEchoesParameter` | src/commons/services/pagination.service.ts:91-92 | a missing or zero `page` is echoed as given while page 1 is fetched |
| `Pagination.MetadataExample` | src/commons/services/pagination.service.ts:90-98 | 25 rows, limit 10, page 2: previous 1, next 3, 3 pages |
| `Crud.HandleError` | src/commons/services/base-crud.service.ts:63-66 | the cause is dropped: the result is a 400 with the operation's message, and the interceptor reports exactly that status and message |
| `Crud.StoreFailureEnvelope` | src/commons/services/base-crud.service.ts:63-66 | a store failure normalised by `handleError` reaches the client as a 400 envelope carrying the operation's message |
| `Crud.GenericCreate` | src/commons/services/base-crud.service.ts:68-104 | one `create` on the routed target with a copy of the data; `select` dropped beside `include` on the direct path only; the arguments are exactly `data`, `include` and `select`, plus `model` on the transaction path; any rejection becomes 400 "Error creating record" |
| `Crud.GenericFindAll` | src/commons/services/base-crud.service.ts:106-124 | fails exactly when composing the options built from its arguments fails, always with a TypeError and never 400 "Error fetching records"; every call goes to the model's delegate; the `findMany` carries the composed filter and ordering and the caller's `include`, and the page metadata is that of `paginate` for those options |
| `Crud.FindAllOptions` | src/commons/services/base-crud.service.ts:106-120 | a falsy filter becomes `{}`; every other option is forwarded unchanged |
| `Crud.GenericFindOne` | src/commons/services/base-crud.service.ts:126-139 | one `findUnique` by `{id}` on the delegate whose arguments are exactly `where`, `include` and `select`; a rejection becomes 400 "Error fetching record" |
| `Crud.GenericFindOneBy` | src/commons/services/base-crud.service.ts:141-155 | one `findFirst` on a copy of the filter whose arguments are exactly `where`, `include` and `select`; a rejection becomes 400 "Error fetching record" |
| `Crud.GenericUpdate` | src/commons/services/base-crud.service.ts:157-194 | one `update` by `{id}` on the routed target with a copy of the data; the arguments are exactly `where`, `data`, `include` and `select`, plus `model` on the transaction path; a rejection becomes 400 "Error updating record" |
| `Crud.GenericDelete` | src/commons/services/base-crud.service.ts:196-218 | one `delete` whose arguments are exactly `{where: {id}}`, plus `model` on the transaction path |
| `Crud.GenericSoftDelete` | src/commons/services/base-crud.service.ts:220-254 | a missing context throws a TypeError before any call; otherwise an `update` as above with "Error soft deleting record" |
| `Crud.GenericRestore` | src/commons/services/base-crud.service.ts:256-290 | a missing context throws a TypeError before any call; otherwise an `update` as above with "Error restoring record" |
| `Crud.GenericCount` | src/commons/services/base-crud.service.ts:292-300 | the `{}` default replaces only an `undefined` filter; a rejection becomes 400 "Error counting records" |
| `Crud.GenericGroupBy` | src/commons/services/base-crud.service.ts:302-321 | the arguments are exactly `by, where, orderBy, skip, take`, with falsy `skip` and `take` defaulted to 0 and 10 |
| `Crud.MissingContextAsymmetry` | src/commons/services/base-crud.service.ts:220-238 | without a context, create, update and delete go direct while soft-delete and restore throw before any call |
| `Crud.ProjectionAsymmetry` | src/commons/services/base-crud.service.ts:75-98 | with `include` given, `select` is forwarded only on the transaction path |
| `Crud.CauseNeverLeaks` | src/commons/services/base-crud.service.ts:63-66 | two different store errors give the same 400 result |
| `Crud.GroupByZeroTake` | src/commons/services/base-crud.service.ts:305-306 | an explicit `take: 0` becomes 10 |
| `Crud.FindAllFilterPresent` | src/commons/services/base-crud.service.ts:106-108 | through `genericFindAll` the soft-delete step cannot fail |
| `Response.SuccessMessage` | src/commons/interceptors/response.interceptor.ts:23 | the data's truthy `message`, else "Success"; always truthy |
| `Response.OnSuccess` | src/commons/interceptors/response.interceptor.ts:11-31 | buffers and already-formatted envelopes pass through; anything else is wrapped with `error: false`, the response status, the message and the data or `null` |
| `Response.WrapIdempotent` | src/commons/interceptors/response.interceptor.ts:17-21 | wrapping a wrapped result changes nothing |
| `Response.FalsyDataBecomesNull` | src/commons/interceptors/response.interceptor.ts:23-29 | falsy data is wrapped as `data: null` with "Success" |
| `Response.ErrorMessage` | src/commons/interceptors/response.interceptor.ts:35-37 | an array `response.message` joined with ", ", else `response.message`, else the error's message |
| `Response.OnError` | src/commons/interceptors/response.interceptor.ts:39-44 | exactly the four keys; `error: true`, `data: null`, status `error.status` or 500 |
| `Response.HttpExceptionEnvelope` | src/commons/interceptors/response.interceptor.ts:39-44 | an `HttpException(message, status)` reaches the client as exactly that message and status |
| `Response.TypeErrorEnvelope` | src/commons/interceptors/response.interceptor.ts:41 | a runtime TypeError is reported as a 500 |
| `Response.ValidationMessagesJoined` | src/commons/interceptors/response.interceptor.ts:35-36 | `[m1, m2]` is reported as `"m1, m2"` |
| `Slug.Lower` | src/commons/services/slug.service.ts:12 | each capital letter becomes the letter 32 code points above it, its lower-case form; every other character is unchanged |
| `Slug.Trim` | src/commons/services/slug.service.ts:13 | the text splits into leading whitespace, a middle with no whitespace at either end, and trailing whitespace |
| `Slug.TrimFixed` | src/commons/services/slug.service.ts:13 | text without whitespace at its ends is its own trim |
| `Slug.CollapseRuns` | src/commons/services/slug.service.ts:14-16 | a non-empty text collapses to a non-empty text whose first character is '-' when the text starts with a run, and the text's own first character otherwise; the rows below fix the rest |
| `Slug.CollapseCharset` | src/commons/services/slug.service.ts:14-16 | after collapsing, every run character left is '-', and no capital letter or character outside `[\w-]` appears that the input did not have |
| `Slug.CollapseSplit` | src/commons/services/slug.service.ts:14-16 | collapsing works piece by piece across any boundary that does not fall inside a run |
| `Slug.CollapseAroundKept` | src/commons/services/slug.service.ts:14-16 | a character outside the runs stays in place, and the text on each side is collapsed on its own |
| `Slug.CollapseRunAlone` | src/commons/services/slug.service.ts:14-16 | a non-empty run becomes a single '-' |
| `Slug.CollapseNoRun` | src/commons/services/slug.service.ts:14-16 | text with no run character is left as it is |
| `Slug.CollapseLeavesNoPair` | src/commons/services/slug.service.ts:16 | after collapsing hyphen runs no `--` remains |
| `Slug.CollapseSingleRuns` | src/commons/services/slug.service.ts:14-16 | text with only single '-' runs is left as it is |
| `Slug.KeepWordChars` | src/commons/services/slug.service.ts:15 | only `[A-Za-z0-9_-]` remains, the first character survives when it is one of them, and text made of them is unchanged |
| `Slug.KeepWordCharsConcat` | src/commons/services/slug.service.ts:15 | what survives of `a + b` is what survives of `a` followed by what survives of `b` |
| `Slug.KeepWordCharsOne` | src/commons/services/slug.service.ts:15 | one character survives exactly when it is in `[\w-]` |
| `Slug.Slugify` | src/commons/services/slug.service.ts:7-17 | the slug holds only `[a-z0-9_-]` and never `--` |
| `Slug.SlugIsFixed` | src/commons/services/slug.service.ts:7-17 | every stage leaves a slug as it is |
| `Slug.SlugifyIdempotent` | src/commons/services/slug.service.ts:7-17 | slugifying a slug gives it back |
| `Slug.LeadingHyphenKept` | src/commons/services/slug.service.ts:13-15 | a leading '-' survives, since trimming removes only whitespace |
| `Slug.DoubleHyphenCollapses` | src/commons/services/slug.service.ts:16 | `--x` becomes `-x` |
| `Slug.SpaceBecomesHyphen` | src/commons/services/slug.service.ts:14 | `- x` becomes `--x` |
| `Slug.HyphenSpaceExample` | src/commons/services/slug.service.ts:13-16 | `- a` becomes `-a` |
| `Slug.TwoWordsExample` | src/commons/services/slug.service.ts:7-17 | two ASCII words around a whitespace gap and followed by punctuation give the lower-cased words joined by one '-' |
| `Slug.HelloWorld` | src/commons/services/slug.service.ts:7-17 | `"Hello  World!"` becomes `"hello-world"` |
| `Slug.SlugifyValue` | src/commons/services/slug.service.ts:24 | the slug of a value's text holds only slug characters |
| `Slug.SlugValueIdempotent` | src/commons/services/slug.service.ts:22-25 | slugifying a value's slug again changes nothing |
| `Slug.SlugifyStep` | src/commons/services/slug.service.ts:22-26 | each processed key extends the handled prefix; a repeated key changes nothing |
| `Slug.SlugifyObject` | src/commons/services/slug.service.ts:19-29 | the same keys as the input; listed truthy values replaced by their slugs, all others unchanged |
| `Authorization.RoleIncludesAdmin` | src/commons/guards/authorization.guard.ts:23 | text roles: `ADMIN` occurs somewhere; arrays: an element equals `ADMIN`; other values throw a TypeError |
| `Authorization.HasAdminRole` | src/commons/guards/authorization.guard.ts:22-24 | a falsy role short-circuits to false |
| `Authorization.CanActivate` | src/commons/guards/authorization.guard.ts:10-20 | no user: 403 "Unauthenticated user."; an admin role: 403 "User role is unauthorize."; passing resolves to `true` |
| `Authorization.TextRoleDecision` | src/commons/guards/authorization.guard.ts:16-23 | a text role passes exactly when `ADMIN` occurs nowhere in it |
| `Authorization.MissingRolePasses` | src/commons/guards/authorization.guard.ts:19-23 | no role or an empty role passes |
| `Authorization.AdminInsideLongerRoleRejected` | src/commons/guards/authorization.guard.ts:23 | `ADMIN` inside any longer text is rejected |
| `Authorization.SuperAdminRejected` | src/commons/guards/authorization.guard.ts:23 | `SUPERADMIN` is rejected |
| `Authorization.LowerCaseAdminPasses` | src/commons/guards/authorization.guard.ts:23 | text without a capital `A`, such as `admin`, passes |
| `Authorization.RoleArrayIsExact` | src/commons/guards/authorization.guard.ts:23 | `["SUPERADMIN"]` passes, as arrays compare whole elements |

## Left out

- **Logging and service lookup.** `Logger` calls are not modelled. Neither are the lazily fetched services (`initServices`, the request-context provider, the Prisma client getter). The request context is a parameter.
- **Promises.** `async`/`await` and promise scheduling are not modelled. Every operation is a single synchronous step.
- **The store.** The Prisma client and `src/commons/services/prisma.service.ts` are not part of this model. The answers of store calls are parameters.
- Pagination.Paginate: the store's rows and count are given as plain values. A store failure during `paginate` is not modelled; the source lets it propagate unchanged.
- Crud.GenericFindAll: for the same reason, store failures during `paginate` are not modelled.
- Pagination.ApplySoftDelete: the source deletes `deleted_at` from the caller's filter object in place. The model returns a new filter, so the change the caller sees in their own object is not modelled.
- **`specific_pages`.** This parameter is declared but never read by the code, so it is not modelled.
- **Page and limit values.** Both are modelled as integers. Query-string text, fractions and `NaN` are not modelled.
- **Key order.** Object key order is not modelled: objects are maps.
- **Error wording.** TypeError messages follow V8's wording. Their exact text is not a promise of the code.
- **`HttpException` fields.** They are modelled as the framework sets them for a text message: the status, the message string as `response`, and the message.
- Slug.Slugify: requires ASCII text. Canonical decomposition, removal of combining marks, Unicode case mapping and Unicode whitespace are not modelled; on ASCII text the first two change nothing.
- Slug.SlugifyObject: requires ASCII text for every listed truthy value, for the same reason.
- Slug.SlugifyValue: an object's own `toString` is not modelled. Objects read as `[object Object]`.
- Slug.SlugifyObject: inherited members are not modelled. `Values.Member` reads own properties only. For a key such as `constructor` or `toString` that the object does not own, `result[key]` in the source finds the inherited function, which is truthy, so the source slugifies its text and adds the key. The model leaves the object unchanged.
- Pagination.Directive: a `__proto__` segment is treated as an ordinary key. In the source, an assignment to `__proto__` before the last segment sets the prototype of the new level, so `a.__proto__.b:asc` yields `{a: {}}`. The model yields `{a: {__proto__: {b: "asc"}}}`. As the last segment of a dotted key, `__proto__` is dropped by the source, since assigning a text or `undefined` to it does nothing; the model keeps it as a key. A single-segment `__proto__` key is an own property in both.
- Values.ToText: numbers are unbounded integers, not IEEE doubles. From 1e21 up JavaScript prints exponent form (`String(1e21)` is `"1e+21"`), and integers above 2^53 lose precision. The model prints every integer in plain decimal. This affects `Slug.SlugifyValue` on numbers and the index keys `Values.Spread` gives arrays and strings, for sizes no real array reaches.
- Response.OnSuccess: the HTTP response's status code is a parameter.
- Response.OnError: the rethrow of the error envelope as an `HttpException` is modelled by returning the envelope.
- **The rest of the repository.** Authentication, mail, file storage, security helpers, random generators, bootstrap, middleware and migrations are outside the core and not modelled.

=== FILE: authorization.dfy ===
/**
 The authorization guard: a request passes unless it has no user or its
 user's role mentions `ADMIN`; both rejections are 403 errors.
 */
module Authorization {
  import opened Values
  import opened Exceptions
  import Text

  const ADMIN := "ADMIN"
  const UNAUTHENTICATED := "Unauthenticated user."
  const ROLE_REJECTED := "User role is unauthorize."
  const INCLUDES_NOT_A_FUNCTION := "user.role.includes is not a function"

  /** `role.includes('ADMIN')`: a substring test on text and an element
      test on arrays. Other values have no `includes`, and calling it
      throws a TypeError. */
  function RoleIncludesAdmin(role: Json): (r: Result<bool>)
    ensures r.Err? <==> !role.Str? && !role.Arr?
    ensures r.Err? ==> r.error == TypeError(INCLUDES_NOT_A_FUNCTION)
    ensures role.Str? ==> (r == Ok(true) <==> exists i :: Text.OccursAt(role.s, ADMIN, i))
    ensures role.Arr? ==> (r == Ok(true) <==> exists i :: 0 <= i < |role.items| && role.items[i] == Str(ADMIN))
  {
    match role
    case Str(s) => Ok(Text.Includes(s, ADMIN))
    case Arr(items) => Ok(Str(ADMIN) in items)
    case _ => Err(TypeError(INCLUDES_NOT_A_FUNCTION))
  }

  /** `checkUserRole`: `user.role && user.role.includes('ADMIN')`, whose
      result the guard reads for truthiness. A falsy role short-circuits. */
  function HasAdminRole(user: Json): (r: Result<bool>)
    ensures !Truthy(Member(user, "role")) ==> r == Ok(false)
    ensures Truthy(Member(user, "role")) ==> r == RoleIncludesAdmin(Member(user, "role"))
  {
    var role := Member(user, "role");
    if Truthy(role) then RoleIncludesAdmin(role) else Ok(false)
  }

  /** `canActivate` over `request.user`: it resolves to `true` or throws. */
  function CanActivate(user: Json): (r: Result<bool>)
    ensures r.Ok? ==> r.value
    ensures !Truthy(user) ==> r == Err(HttpException(UNAUTHENTICATED, FORBIDDEN))
    ensures Truthy(user) ==> (r.Ok? <==> HasAdminRole(user) == Ok(false))
    ensures Truthy(user) && HasAdminRole(user) == Ok(true) ==>
      r == Err(HttpException(ROLE_REJECTED, FORBIDDEN))
  {
    if !Truthy(user) then Err(HttpException(UNAUTHENTICATED, FORBIDDEN))
    else
      var hasRole :- HasAdminRole(user);
      if hasRole then Err(HttpException(ROLE_REJECTED, FORBIDDEN)) else Ok(true)
  }

  /** A user whose role is text passes exactly when `ADMIN` occurs nowhere
      in it, and is otherwise rejected with 403. */
  lemma TextRoleDecision(user: Json, role: string)
    requires Truthy(user) && Member(user, "role") == Str(role)
    ensures CanActivate(user).Ok? <==> forall i :: !Text.OccursAt(role, ADMIN, i)
    ensures CanActivate(user).Err? ==> CanActivate(user).error == HttpException(ROLE_REJECTED, FORBIDDEN)
  {
  }

  /** A user with no role, or an empty one, always passes. */
  lemma MissingRolePasses(user: Json)
    requires Truthy(user) && !Truthy(Member(user, "role"))
    ensures CanActivate(user) == Ok(true)
  {
  }

  /** The test is on substrings: `SUPERADMIN` is rejected along with
      `ADMIN`, as is `ADMIN` inside any longer text. */
  lemma AdminInsideLongerRoleRejected(user: Json, before: string, after: string)
    requires Truthy(user) && Member(user, "role") == Str(before + ADMIN + after)
    ensures CanActivate(user) == Err(HttpException(ROLE_REJECTED, FORBIDDEN))
  {
    var role := before + ADMIN + after;
    assert role[|before|..|before| + |ADMIN|] == ADMIN;
    assert Text.OccursAt(role, ADMIN, |before|);
  }

  lemma SuperAdminRejected(user: Json)
    requires Truthy(user) && Member(user, "role") == Str("SUPERADMIN")
    ensures CanActivate(user) == Err(HttpException(ROLE_REJECTED, FORBIDDEN))
  {
    assert "SUPERADMIN" == "SUPER" + ADMIN + "";
    AdminInsideLongerRoleRejected(user, "SUPER", "");
  }

  /** The test is case-sensitive: text without a capital `A`, such as
      `admin` spelt in lower case, passes. */
  lemma LowerCaseAdminPasses(user: Json, role: string)
    requires Truthy(user) && Member(user, "role") == Str(role)
    requires forall i :: 0 <= i < |role| ==> role[i] != 'A'
    ensures CanActivate(user) == Ok(true)
  {
    forall i ensures !Text.OccursAt(role, ADMIN, i) {
      if 0 <= i && i + |ADMIN| <= |role| {
        assert role[i..i + |ADMIN|][0] == role[i];
      }
    }
  }

  /** A role array is tested element by element: `["SUPERADMIN"]` passes
      although the text `SUPERADMIN` does not. */
  lemma RoleArrayIsExact(user: Json)
    requires Truthy(user) && Member(user, "role") == Arr([Str("SUPERADMIN")])
    ensures CanActivate(user) == Ok(true)
  {
    assert Str("SUPERADMIN") != Str(ADMIN);
  }
}

=== FILE: crud.dfy ===
/**
 The generic CRUD engine. Each mutating operation reads the request context
 and either calls the delegate bound to the model or, inside a
 transaction, the client's transaction-aware method with the model name as
 an argument. Reads always use the delegate. Every store rejection becomes
 one fixed, operation-specific 400 error.
 */
module Crud {
  import opened Values
  import opened Exceptions
  import opened Store
  import Pagination
  import Response

  const CREATE_ERROR := "Error creating record"
  const FETCH_ERROR := "Error fetching record"
  const FETCH_ALL_ERROR := "Error fetching records"
  const UPDATE_ERROR := "Error updating record"
  const DELETE_ERROR := "Error deleting record"
  const SOFT_DELETE_ERROR := "Error soft deleting record"
  const RESTORE_ERROR := "Error restoring record"
  const COUNT_ERROR := "Error counting records"
  const GROUP_BY_ERROR := "Error grouping records"

  const DEFAULT_GROUP_SKIP := 0
  const DEFAULT_GROUP_TAKE := 10

  /** What one operation did: the store calls it made, in order, and what
      it returned or threw. */
  datatype Exchange = Exchange(calls: seq<Call>, result: Result<Json>)

  /** `handleError`: the original error is only logged; a 400 with the
      operation's message is thrown instead. */
  function HandleError(message: string): (e: Exception)
    ensures e.status == Num(BAD_REQUEST) && e.message == Str(message)
    ensures Response.OnError(e) == Response.Envelope(true, Num(BAD_REQUEST), Str(message), Null)
  {
    Response.HttpExceptionEnvelope(message, BAD_REQUEST);
    HttpException(message, BAD_REQUEST)
  }

  /** Awaiting one store call inside `try`. */
  function Attempt(call: Call, outcome: Outcome, message: string): Exchange
  {
    match outcome
    case Returns(v) => Exchange([call], Ok(v))
    case Throws(_) => Exchange([call], Err(HandleError(message)))
  }

  /** `!include ? select : undefined` */
  function Projection(includes: Json, select: Json): Json
  {
    if Truthy(includes) then Absent else select
  }

  /** `{...data}` */
  function Copy(data: Json): Json
  {
    Obj(Spread(data))
  }

  /** `{id}` */
  function ById(id: Json): Json
  {
    Obj(map["id" := id])
  }

  /** Whether the context holds a truthy transaction. `request?.transaction`
      reads a missing context as "no transaction"; `request.transaction`
      throws for it, outside any `try`. */
  function InTransaction(request: Json, optionalChaining: bool): Result<bool>
  {
    if Nullish(request) then
      if optionalChaining then Ok(false) else Err(ReadOfNullish(request, "transaction"))
    else Ok(Truthy(Member(request, "transaction")))
  }

  /** The shared shape of the mutating operations: the direct call, or the
      transaction-aware call that also names the model. */
  function Mutation(request: Json, optionalChaining: bool, model: string, op: Op,
                    direct: map<string, Json>, scoped: map<string, Json>,
                    outcome: Outcome, message: string): (x: Exchange)
    ensures |x.calls| <= 1
    ensures |x.calls| == 1 ==>
      x.calls[0].args.Keys == (if x.calls[0].target == Client then scoped.Keys + {"model"} else direct.Keys)
  {
    match InTransaction(request, optionalChaining)
    case Err(e) => Exchange([], Err(e))
    case Ok(inTransaction) =>
      if !inTransaction then Attempt(Call(Delegate(model), op, direct), outcome, message)
      else Attempt(Call(Client, op, scoped["model" := Str(model)]), outcome, message)
  }

  // ---------------------------------------------------------------------
  // What every operation promises, stated once

  /** The routing rule: the transaction-aware client exactly when the
      context holds a truthy transaction. */
  function ChosenTarget(request: Json, model: string): Target
  {
    if Truthy(Member(request, "transaction")) then Client else Delegate(model)
  }

  /** The result is the store's value, or the fixed error whatever the store
      threw. */
  predicate Normalised(x: Exchange, outcome: Outcome, message: string)
  {
    x.result == (if outcome.Returns? then Ok(outcome.value)
                 else Err(HttpException(message, BAD_REQUEST)))
  }

  /** Exactly one call, of `op`, on the target the routing rule picks; a
      transaction-aware call names the model. */
  predicate RoutedCall(x: Exchange, request: Json, model: string, op: Op)
  {
    && |x.calls| == 1
    && x.calls[0].op == op
    && x.calls[0].target == ChosenTarget(request, model)
    && (x.calls[0].target == Client <==>
          "model" in x.calls[0].args && x.calls[0].args["model"] == Str(model))
  }

  /** `include` is passed on; `select` is dropped next to a truthy `include`
      on the direct path only. */
  predicate Projected(c: Call, includes: Json, select: Json)
  {
    && "include" in c.args && c.args["include"] == includes
    && "select" in c.args
    && c.args["select"] == (if c.target.Delegate? && Truthy(includes) then Absent else select)
  }

  /** The call's arguments are exactly `keys`, plus `model` on the
      transaction-aware path. */
  predicate ExactArgs(c: Call, keys: set<string>)
  {
    c.args.Keys == (if c.target == Client then keys + {"model"} else keys)
  }

  /** The record is addressed by `{id}` and nothing else. */
  predicate Addressed(c: Call, id: Json)
  {
    "where" in c.args && c.args["where"] == ById(id)
  }

  /** The payload is a shallow copy of `data`, whatever keys it holds. */
  predicate Carries(c: Call, data: Json)
  {
    "data" in c.args && c.args["data"] == Obj(Spread(data))
  }

  // ---------------------------------------------------------------------
  // Mutating operations

  /** The arguments of an update by `{id}`: the record, a copy of the
      payload, `include` and the given projection. */
  function UpdateArgs(id: Json, data: Json, includes: Json, select: Json): (m: map<string, Json>)
    ensures m.Keys == {"where", "data", "include", "select"}
    ensures m["where"] == ById(id) && m["data"] == Copy(data)
    ensures m["include"] == includes && m["select"] == select
  {
    map["where" := ById(id), "data" := Copy(data), "include" := includes, "select" := select]
  }

  function GenericCreate(request: Json, model: string, data: Json, includes: Json, select: Json,
                         outcome: Outcome): (x: Exchange)
    ensures RoutedCall(x, request, model, Create)
    ensures Carries(x.calls[0], data) && Projected(x.calls[0], includes, select)
    ensures ExactArgs(x.calls[0], {"data", "include", "select"})
    ensures Normalised(x, outcome, CREATE_ERROR)
  {
    Mutation(request, true, model, Create,
      map["data" := Copy(data), "include" := includes, "select" := Projection(includes, select)],
      map["data" := Copy(data), "include" := includes, "select" := select],
      outcome, CREATE_ERROR)
  }

  function GenericUpdate(request: Json, model: string, id: Json, data: Json, includes: Json,
                         select: Json, outcome: Outcome): (x: Exchange)
    ensures RoutedCall(x, request, model, Update)
    ensures Addressed(x.calls[0], id) && Carries(x.calls[0], data)
    ensures Projected(x.calls[0], includes, select)
    ensures ExactArgs(x.calls[0], {"where", "data", "include", "select"})
    ensures Normalised(x, outcome, UPDATE_ERROR)
  {
    Mutation(request, true, model, Update,
      UpdateArgs(id, data, includes, Projection(includes, select)),
      UpdateArgs(id, data, includes, select),
      outcome, UPDATE_ERROR)
  }

  function GenericDelete(request: Json, model: string, id: Json, outcome: Outcome): (x: Exchange)
    ensures RoutedCall(x, request, model, Delete)
    ensures Addressed(x.calls[0], id)
    ensures ExactArgs(x.calls[0], {"where"})
    ensures Normalised(x, outcome, DELETE_ERROR)
  {
    Mutation(request, true, model, Delete,
      map["where" := ById(id)], map["where" := ById(id)], outcome, DELETE_ERROR)
  }

  /** An update of the caller's marker fields, reading `request.transaction`
      without optional chaining: the shape `genericSoftDelete` and
      `genericRestore` share. */
  function MarkerUpdate(request: Json, model: string, id: Json, data: Json, includes: Json,
                        select: Json, outcome: Outcome, message: string): (x: Exchange)
    ensures Nullish(request) ==> x == Exchange([], Err(ReadOfNullish(request, "transaction")))
    ensures !Nullish(request) ==> RoutedCall(x, request, model, Update)
    ensures !Nullish(request) ==>
      && Addressed(x.calls[0], id) && Carries(x.calls[0], data)
      && Projected(x.calls[0], includes, select)
      && ExactArgs(x.calls[0], {"where", "data", "include", "select"})
      && Normalised(x, outcome, message)
  {
    Mutation(request, false, model, Update,
      UpdateArgs(id, data, includes, Projection(includes, select)),
      UpdateArgs(id, data, includes, select),
      outcome, message)
  }

  function GenericSoftDelete(request: Json, model: string, id: Json, data: Json, includes: Json,
                             select: Json, outcome: Outcome): (x: Exchange)
    ensures Nullish(request) ==> x == Exchange([], Err(ReadOfNullish(request, "transaction")))
    ensures !Nullish(request) ==>
      && RoutedCall(x, request, model, Update)
      && Addressed(x.calls[0], id) && Carries(x.calls[0], data)
      && Projected(x.calls[0], includes, select)
      && ExactArgs(x.calls[0], {"where", "data", "include", "select"})
      && Normalised(x, outcome, SOFT_DELETE_ERROR)
  {
    MarkerUpdate(request, model, id, data, includes, select, outcome, SOFT_DELETE_ERROR)
  }

  function GenericRestore(request: Json, model: string, id: Json, data: Json, includes: Json,
                          select: Json, outcome: Outcome): (x: Exchange)
    ensures Nullish(request) ==> x == Exchange([], Err(ReadOfNullish(request, "transaction")))
    ensures !Nullish(request) ==>
      && RoutedCall(x, request, model, Update)
      && Addressed(x.calls[0], id) && Carries(x.calls[0], data)
      && Projected(x.calls[0], includes, select)
      && ExactArgs(x.calls[0], {"where", "data", "include", "select"})
      && Normalised(x, outcome, RESTORE_ERROR)
  {
    MarkerUpdate(request, model, id, data, includes, select, outcome, RESTORE_ERROR)
  }

  // ---------------------------------------------------------------------
  // Reads: no request context, always the delegate

  function GenericFindOne(model: string, id: Json, includes: Json, select: Json,
                          outcome: Outcome): (x: Exchange)
    ensures |x.calls| == 1 && x.calls[0].target == Delegate(model) && x.calls[0].op == FindUnique
    ensures Addressed(x.calls[0], id) && Projected(x.calls[0], includes, select)
    ensures x.calls[0].args.Keys == {"where", "include", "select"}
    ensures Normalised(x, outcome, FETCH_ERROR)
  {
    Attempt(Call(Delegate(model), FindUnique,
      map["where" := ById(id), "include" := includes, "select" := Projection(includes, select)]),
      outcome, FETCH_ERROR)
  }

  function GenericFindOneBy(model: string, whereClause: Json, includes: Json, select: Json,
                            outcome: Outcome): (x: Exchange)
    ensures |x.calls| == 1 && x.calls[0].target == Delegate(model) && x.calls[0].op == FindFirst
    ensures "where" in x.calls[0].args && x.calls[0].args["where"] == Obj(Spread(whereClause))
    ensures Projected(x.calls[0], includes, select)
    ensures x.calls[0].args.Keys == {"where", "include", "select"}
    ensures Normalised(x, outcome, FETCH_ERROR)
  {
    Attempt(Call(Delegate(model), FindFirst,
      map["where" := Copy(whereClause), "include" := includes,
          "select" := Projection(includes, select)]),
      outcome, FETCH_ERROR)
  }

  /** `genericCount(whereClause = {})`: the default replaces only an
      `undefined` filter, not a `null` one. */
  function GenericCount(model: string, whereClause: Json, outcome: Outcome): (x: Exchange)
    ensures |x.calls| == 1 && x.calls[0].target == Delegate(model) && x.calls[0].op == Count
    ensures x.calls[0].args == map["where" := if whereClause.Absent? then Obj(map[]) else whereClause]
    ensures Normalised(x, outcome, COUNT_ERROR)
  {
    var where := if whereClause.Absent? then Obj(map[]) else whereClause;
    Attempt(Call(Delegate(model), Count, map["where" := where]), outcome, COUNT_ERROR)
  }

  function GenericGroupBy(model: string, groupFields: Json, whereClause: Json, orderBy: Json, skip: Json,
                          take: Json, outcome: Outcome): (x: Exchange)
    ensures |x.calls| == 1 && x.calls[0].target == Delegate(model) && x.calls[0].op == GroupBy
    ensures x.calls[0].args.Keys == {"by", "where", "orderBy", "skip", "take"}
    ensures x.calls[0].args["by"] == groupFields && x.calls[0].args["where"] == whereClause
    ensures x.calls[0].args["orderBy"] == orderBy
    ensures x.calls[0].args["skip"] == (if Truthy(skip) then skip else Num(DEFAULT_GROUP_SKIP))
    ensures x.calls[0].args["take"] == (if Truthy(take) then take else Num(DEFAULT_GROUP_TAKE))
    ensures Normalised(x, outcome, GROUP_BY_ERROR)
  {
    Attempt(Call(Delegate(model), GroupBy,
      map["by" := groupFields, "where" := whereClause, "orderBy" := orderBy,
          "skip" := Or(skip, Num(DEFAULT_GROUP_SKIP)), "take" := Or(take, Num(DEFAULT_GROUP_TAKE))]),
      outcome, GROUP_BY_ERROR)
  }

  /** The options `genericFindAll` hands to `paginate`: a falsy filter
      becomes `{}`, everything else is forwarded unchanged. */
  function FindAllOptions(model: string, whereClause: Json, includes: Json, select: Json,
                          searchables: Option<seq<string>>, orderBy: Json,
                          params: Pagination.Params): (o: Pagination.Options)
    ensures o.where == (if Truthy(whereClause) then whereClause else Obj(map[]))
    ensures o.model == model && o.includes == includes && o.select == select
    ensures o.searchables == searchables && o.orderBy == orderBy && o.params == params
  {
    Pagination.Options(model, Or(whereClause, Obj(map[])), includes, select, orderBy, params,
      searchables)
  }

  /** `genericFindAll`, with the rows and the count the store answers. The
      `paginate` promise is returned without being awaited, so its failures
      pass through the surrounding `try` untouched: they are TypeErrors and
      never the 400 "Error fetching records". */
  function GenericFindAll(model: string, whereClause: Json, includes: Json, select: Json,
                          searchables: Option<seq<string>>, orderBy: Json,
                          params: Pagination.Params, data: seq<Json>, totalCount: nat)
    : (r: Result<Pagination.PageRun>)
    ensures var o := FindAllOptions(model, whereClause, includes, select, searchables, orderBy, params);
      r.Err? <==> Pagination.Compose(o).Err?
    ensures r.Err? ==> r.error.status == Absent && r.error != HandleError(FETCH_ALL_ERROR)
    ensures r.Ok? ==> forall i :: 0 <= i < |r.value.calls| ==> r.value.calls[i].target == Delegate(model)
    ensures r.Ok? ==>
      var plan := Pagination.Compose(FindAllOptions(model, whereClause, includes, select, searchables,
        orderBy, params)).value;
      && |r.value.calls| >= 1 && r.value.calls[0].op == FindMany
      && {"where", "include", "orderBy"} <= r.value.calls[0].args.Keys
      && r.value.calls[0].args["where"] == plan.where
      && r.value.calls[0].args["orderBy"] == plan.orderBy
      && r.value.calls[0].args["include"] == includes
      && r.value.view == (if params.all then Pagination.AllView(data)
                          else Pagination.PagedView(params, plan, data, totalCount))
  {
    Pagination.Paginate(FindAllOptions(model, whereClause, includes, select, searchables, orderBy,
      params), data, totalCount)
  }

  // ---------------------------------------------------------------------
  // Consequences

  /** A missing request context is direct mode for create, update and
      delete, but makes soft-delete and restore throw a TypeError before any
      store call. */
  lemma MissingContextAsymmetry(model: string, id: Json, data: Json, includes: Json, select: Json,
                                outcome: Outcome)
    ensures GenericCreate(Absent, model, data, includes, select, outcome).calls[0].target == Delegate(model)
    ensures GenericUpdate(Absent, model, id, data, includes, select, outcome).calls[0].target == Delegate(model)
    ensures GenericDelete(Absent, model, id, outcome).calls[0].target == Delegate(model)
    ensures GenericSoftDelete(Absent, model, id, data, includes, select, outcome).calls == []
    ensures GenericSoftDelete(Absent, model, id, data, includes, select, outcome).result.Err?
    ensures GenericSoftDelete(Absent, model, id, data, includes, select, outcome).result.error.status == Absent
    ensures GenericRestore(Absent, model, id, data, includes, select, outcome).calls == []
    ensures GenericRestore(Absent, model, id, data, includes, select, outcome).result.error.status == Absent
  {
  }

  /** With both `include` and `select` given, the direct path drops
      `select` while the transaction path forwards it. */
  lemma ProjectionAsymmetry(request: Json, model: string, data: Json, includes: Json, select: Json,
                            outcome: Outcome)
    requires Truthy(includes)
    ensures var c := GenericCreate(request, model, data, includes, select, outcome).calls[0];
      c.args["select"] == (if Truthy(Member(request, "transaction")) then select else Absent)
  {
  }

  /** The store's own error never reaches the caller: two different
      rejections give the same result. */
  lemma CauseNeverLeaks(request: Json, model: string, id: Json, data: Json, includes: Json,
                        select: Json, e1: Exception, e2: Exception)
    ensures GenericUpdate(request, model, id, data, includes, select, Throws(e1)).result
         == GenericUpdate(request, model, id, data, includes, select, Throws(e2)).result
    ensures GenericUpdate(request, model, id, data, includes, select, Throws(e1)).result
         == Err(HttpException(UPDATE_ERROR, BAD_REQUEST))
  {
  }

  /** An explicit `take` of 0 is replaced by the default 10. */
  lemma GroupByZeroTake(model: string, groupFields: Json, whereClause: Json, orderBy: Json, outcome: Outcome)
    ensures GenericGroupBy(model, groupFields, whereClause, orderBy, Num(0), Num(0), outcome).calls[0].args["take"]
         == Num(10)
    ensures GenericGroupBy(model, groupFields, whereClause, orderBy, Num(0), Num(0), outcome).calls[0].args["skip"]
         == Num(0)
  {
  }

  /** Through `genericFindAll` the filter is never missing, so
      `is_deleted_too` cannot fail on it. */
  lemma FindAllFilterPresent(model: string, whereClause: Json, includes: Json, select: Json,
                             searchables: Option<seq<string>>, orderBy: Json, params: Pagination.Params)
    ensures var o := FindAllOptions(model, whereClause, includes, select, searchables, orderBy, params);
      Pagination.ApplySoftDelete(o.where, params).Ok?
  {
  }

  /** A rejected store call reaches the client as a 400 envelope carrying
      the operation's fixed message, whichever error the store raised. */
  lemma StoreFailureEnvelope(x: Exchange, cause: Exception, message: string)
    requires Normalised(x, Throws(cause), message)
    ensures x.result.Err?
    ensures Response.OnError(x.result.error) ==
      Response.Envelope(true, Num(BAD_REQUEST), Str(message), Null)
  {
    Response.HttpExceptionEnvelope(message, BAD_REQUEST);
  }
}

=== FILE: exceptions.dfy ===
/**
 What a thrown error carries, as far as the response interceptor reads it:
 `error.status`, `error.response` and `error.message`.
 */
module Exceptions {
  import opened Values

  datatype Exception = Exception(status: Json, response: Json, message: Json)

  /** Outcome of an operation that can throw. */
  datatype Result<+T> = Ok(value: T) | Err(error: Exception) {
    predicate IsFailure()
    {
      Err?
    }

    function PropagateFailure<U>(): Result<U>
      requires Err?
    {
      Err(error)
    }

    function Extract(): T
      requires Ok?
    {
      value
    }
  }

  const BAD_REQUEST := 400
  const FORBIDDEN := 403

  /** `new HttpException(message, status)` with a string response: the
      framework keeps the string as the response and as the message. */
  function HttpException(message: string, status: int): Exception
  {
    Exception(Num(status), Str(message), Str(message))
  }

  /** A TypeError raised by the JavaScript runtime; it has no HTTP status. */
  function TypeError(message: string): Exception
  {
    Exception(Absent, Absent, Str(message))
  }

  /** The TypeError for reading `prop` of `null` or `undefined`. */
  function ReadOfNullish(target: Json, prop: string): Exception
  {
    TypeError("Cannot read properties of " + (if target.Null? then "null" else "undefined")
      + " (reading '" + prop + "')")
  }

  /** The TypeError for spreading a non-iterable value into an array. */
  function NotIterable(what: string): Exception
  {
    TypeError(what + " is not iterable")
  }
}

=== FILE: pagination.dfy ===
/**
 The query composer: from raw pagination parameters, a base filter, a base
 ordering and the searchable field paths, it builds the filter, the
 ordering and the skip/take window for the store, and from the store's
 answers it derives the page metadata.
 */
module Pagination {
  import opened Values
  import opened Exceptions
  import opened Store
  import Text

  const DEFAULT_LIMIT := 10
  const DEFAULT_PAGE := 1

  /** The pagination query parameters. `None` is an absent parameter; an
      absent flag reads as `false`. `isDeletedToo` keeps `None` apart from
      `false` because the filter is read whenever the flag is present at
      all. A missing parameter object reads exactly like one with every
      field absent. */
  datatype Params = Params(
    page: Option<int>,
    limit: Option<int>,
    all: bool,
    search: Option<string>,
    isDeletedToo: Option<bool>,
    isDeletedOnly: bool,
    order: Option<string>,
    loadPreviousPages: bool)

  /** What a caller hands to `paginate`. */
  datatype Options = Options(
    model: string,
    where: Json,
    includes: Json,  // the `include` option (`include` is a Dafny keyword)
    select: Json,
    orderBy: Json,
    params: Params,
    searchables: Option<seq<string>>)

  /** The composed query: filter, ordering, the defaulted page and limit,
      and the window. */
  datatype Plan = Plan(where: Json, orderBy: Json, page: int, limit: int, skip: int, take: int)

  /** The page metadata handed back to the caller. `currentPage` is `None`
      when it is `undefined`; `previousPage` and `nextPage` are `None` when
      they are `null`. */
  datatype PageView = PageView(
    currentPage: Option<int>,
    previousPage: Option<int>,
    nextPage: Option<int>,
    count: nat,
    totalCount: int,
    totalPages: int,
    result: seq<Json>)

  /** The store calls one `paginate` makes, and what it returns. */
  datatype PageRun = PageRun(calls: seq<Call>, view: PageView)

  /** `n || fallback` for an optional number. */
  function OrDefault(n: Option<int>, fallback: int): int
  {
    if n.Some? && n.value != 0 then n.value else fallback
  }

  function Limit(p: Params): int
  {
    OrDefault(p.limit, DEFAULT_LIMIT)
  }

  function PageNumber(p: Params): int
  {
    OrDefault(p.page, DEFAULT_PAGE)
  }

  predicate Given(s: Option<string>)
  {
    s.Some? && |s.value| > 0
  }

  // ---------------------------------------------------------------------
  // Soft-delete flags

  /** The condition `{not: null}` on the soft-delete marker. */
  const NOT_NULL: Json := Obj(map["not" := Null])

  /** A true `is_deleted_too` drops a truthy `deleted_at` condition; then
      `is_deleted_only` sets `deleted_at` to `{not: null}`, so it wins when
      both are set. Whenever `is_deleted_too` is present, even as `false`,
      `deleted_at` of the filter is read, which throws on a missing filter. */
  function ApplySoftDelete(where: Json, p: Params): (r: Result<Json>)
    ensures r.Err? <==> p.isDeletedToo.Some? && Nullish(where)
    ensures r.Ok? && p.isDeletedOnly ==>
      r.value.Obj? && "deleted_at" in r.value.fields && r.value.fields["deleted_at"] == NOT_NULL
    ensures r.Ok? && p.isDeletedOnly ==> forall k :: k != "deleted_at" ==>
      (k in r.value.fields <==> k in Spread(where))
    ensures r.Ok? && p.isDeletedOnly ==> forall k :: k != "deleted_at" && k in Spread(where) ==>
      r.value.fields[k] == Spread(where)[k]
    ensures r.Ok? && !p.isDeletedOnly && p.isDeletedToo == Some(true) && Truthy(Member(where, "deleted_at")) ==>
      r.value.Obj? && r.value.fields.Keys == where.fields.Keys - {"deleted_at"} &&
      forall k :: k in r.value.fields ==> r.value.fields[k] == where.fields[k]
    ensures r.Ok? && !p.isDeletedOnly && !(p.isDeletedToo == Some(true) && Truthy(Member(where, "deleted_at"))) ==>
      r.value == where
  {
    if p.isDeletedToo.Some? && Nullish(where) then
      Err(ReadOfNullish(where, "deleted_at"))
    else
      var kept := if p.isDeletedToo == Some(true) && Truthy(Member(where, "deleted_at"))
        then Obj(where.fields - {"deleted_at"}) else where;
      if p.isDeletedOnly then Ok(Obj(Spread(kept)["deleted_at" := NOT_NULL])) else Ok(kept)
  }

  // ---------------------------------------------------------------------
  // Ordering

  /** One `path:direction` item: the `.`-split path as a single-key chain
      whose innermost value is the text between the first and the second
      `:`, or `undefined` when there is no `:`. */
  function Directive(item: string): (r: Json)
    ensures var halves := Text.Split(item, ':'); var path := Text.Split(halves[0], '.');
      && r.Obj? && r.fields.Keys == {path[0]}
      && Descend(r, path) == (if ':' in item then Str(halves[1]) else Absent)
    ensures var path := Text.Split(Text.Split(item, ':')[0], '.'); r == Nest(path, Descend(r, path))
  {
    var halves := Text.Split(item, ':');
    var path := Text.Split(halves[0], '.');
    var leaf := if |halves| >= 2 then Str(halves[1]) else Absent;
    Text.CountPositive(item, ':');
    DescendNest(path, leaf);
    Nest(path, leaf)
  }

  /** `generateOrderBy`: one directive per comma-separated item. */
  function GenerateOrderBy(order: string): (r: seq<Json>)
    ensures |r| == Text.Count(order, ',') + 1
  {
    var items := Text.Split(order, ',');
    seq(|items|, i requires 0 <= i < |items| => Directive(items[i]))
  }

  /** An item `p1.p2...pn:dir:...` becomes the chain `{p1: {p2: ... {pn: dir}}}`:
      only the text between the first and the second `:` is the direction,
      and whatever follows the second `:` is dropped. */
  lemma DirectiveOfPath(segments: seq<string>, rest: seq<string>)
    requires |segments| >= 1
    requires forall i :: 0 <= i < |segments| ==> '.' !in segments[i] && ':' !in segments[i]
    requires |rest| >= 1
    requires forall i :: 0 <= i < |rest| ==> ':' !in rest[i]
    ensures Directive(Text.Join(segments, ".") + ":" + Text.Join(rest, ":")) == Nest(segments, Str(rest[0]))
  {
    var path := Text.Join(segments, ".");
    var item := path + ":" + Text.Join(rest, ":");
    NoCharInJoin(segments, ".", ':');
    Text.JoinCons(path, rest, ":");
    Text.SplitJoin([path] + rest, ':');
    var halves := Text.Split(item, ':');
    assert halves == [path] + rest;
    Text.SplitJoin(segments, '.');
    assert Text.Split(halves[0], '.') == segments;
  }

  /** An item without `:` gets an `undefined` direction rather than an error. */
  lemma DirectiveWithoutDirection(segments: seq<string>)
    requires |segments| >= 1
    requires forall i :: 0 <= i < |segments| ==> '.' !in segments[i] && ':' !in segments[i]
    ensures Directive(Text.Join(segments, ".")) == Nest(segments, Absent)
  {
    var path := Text.Join(segments, ".");
    NoCharInJoin(segments, ".", ':');
    Text.SplitJoin([path], ':');
    Text.SplitJoin(segments, '.');
  }

  lemma {:induction false} NoCharInJoin(parts: seq<string>, sep: string, c: char)
    requires c !in sep
    requires forall i :: 0 <= i < |parts| ==> c !in parts[i]
    ensures c !in Text.Join(parts, sep)
  {
    if |parts| >= 2 {
      NoCharInJoin(parts[1..], sep, c);
    }
  }

  /** The order string `item1,...,itemn` yields exactly the n directives of
      its items, in order. */
  lemma OrderByItems(items: seq<string>)
    requires |items| >= 1
    requires forall i :: 0 <= i < |items| ==> ',' !in items[i]
    ensures |GenerateOrderBy(Text.Join(items, ","))| == |items|
    ensures forall i :: 0 <= i < |items| ==> GenerateOrderBy(Text.Join(items, ","))[i] == Directive(items[i])
  {
    Text.SplitJoin(items, ',');
  }

  /** Plain text usable as one path segment or direction. */
  predicate Atom(s: string)
  {
    '.' !in s && ':' !in s && ',' !in s
  }

  /** Two comma-free items give two directives. */
  lemma TwoItems(first: string, second: string)
    requires ',' !in first && ',' !in second
    ensures GenerateOrderBy(first + "," + second) == [Directive(first), Directive(second)]
  {
    Text.JoinCons(first, [second], ",");
    assert Text.Join([first, second], ",") == first + "," + second;
    OrderByItems([first, second]);
  }

  lemma FlatDirective(a: string, d: string)
    requires Atom(a) && Atom(d)
    ensures Directive(a + ":" + d) == Obj(map[a := Str(d)])
  {
    assert Text.Join([a], ".") == a;
    assert Text.Join([d], ":") == d;
    DirectiveOfPath([a], [d]);
  }

  lemma NestedDirective(b: string, c: string, d: string)
    requires Atom(b) && Atom(c) && Atom(d)
    ensures Directive(b + "." + c + ":" + d) == Obj(map[b := Obj(map[c := Str(d)])])
  {
    Text.JoinCons(b, [c], ".");
    assert Text.Join([b, c], ".") == b + "." + c;
    assert Text.Join([d], ":") == d;
    DirectiveOfPath([b, c], [d]);
    assert [b, c][1..] == [c];
  }

  /** The shape of `"a:asc,b.c:desc"`: `a:d1,b.c:d2` gives `{a: d1}` then
      `{b: {c: d2}}`. */
  lemma OrderByExample(a: string, b: string, c: string, d1: string, d2: string)
    requires Atom(a) && Atom(b) && Atom(c) && Atom(d1) && Atom(d2)
    ensures GenerateOrderBy(a + ":" + d1 + "," + b + "." + c + ":" + d2)
      == [Obj(map[a := Str(d1)]), Obj(map[b := Obj(map[c := Str(d2)])])]
  {
    var first, second := a + ":" + d1, b + "." + c + ":" + d2;
    assert a + ":" + d1 + "," + b + "." + c + ":" + d2 == first + "," + second;
    TwoItems(first, second);
    FlatDirective(a, d1);
    NestedDirective(b, c, d2);
  }

  /** With an `order` parameter the parsed directives are appended after the
      base ordering, which must then be iterable; without one the base
      ordering is passed on as it is. */
  function ComposeOrder(orderBy: Json, p: Params): (r: Result<Json>)
    ensures !Given(p.order) ==> r == Ok(orderBy)
    ensures Given(p.order) && Iterate(orderBy).Some? ==>
      r == Ok(Arr(Iterate(orderBy).value + GenerateOrderBy(p.order.value)))
    ensures Given(p.order) ==> (r.Err? <==> !orderBy.Arr? && !orderBy.Str?)
  {
    if Given(p.order) then
      match Iterate(orderBy)
      case None => Err(NotIterable("orderBy"))
      case Some(base) => Ok(Arr(base + GenerateOrderBy(p.order.value)))
    else Ok(orderBy)
  }

  // ---------------------------------------------------------------------
  // Search

  /** The case-insensitive `contains` condition on one field. */
  function ContainsFilter(search: string): Json
  {
    Obj(map["contains" := Str(search), "mode" := Str("insensitive")])
  }

  /** `createNestedSearchObject`: the condition on the field at `path`,
      nested one single-key object per path segment. */
  function NestedSearchObject(path: seq<string>, search: string): (r: Json)
    requires |path| >= 1
    ensures r.Obj? && r.fields.Keys == {path[0]}
    ensures Descend(r, path) == ContainsFilter(search)
    decreases |path|
  {
    if |path| == 1 then Obj(map[path[0] := ContainsFilter(search)])
    else Obj(map[path[0] := NestedSearchObject(path[1..], search)])
  }

  /** Search conditions and order directives are built the same way. */
  lemma {:induction false} NestedSearchIsNest(path: seq<string>, search: string)
    requires |path| >= 1
    ensures NestedSearchObject(path, search) == Nest(path, ContainsFilter(search))
    decreases |path|
  {
    if |path| > 1 {
      NestedSearchIsNest(path[1..], search);
    }
  }

  /** One condition per searchable path, in order. */
  function SearchConditions(searchables: seq<string>, search: string): (r: seq<Json>)
    ensures |r| == |searchables|
  {
    seq(|searchables|, i requires 0 <= i < |searchables| =>
      NestedSearchObject(Text.Split(searchables[i], '.'), search))
  }

  /** `mergeORWhereClauses`. A falsy filter, or a clause with no keys, gives
      the filter back. Otherwise every key of the filter is kept and `OR`
      becomes the clause's `OR` when the filter has none, or the filter's
      alternatives followed by the clause's. */
  function MergeOr(initial: Json, another: map<string, Json>): (r: Result<Json>)
    ensures !Truthy(initial) || |another| == 0 ==> r == Ok(initial)
    ensures r.Err? ==> Truthy(Member(initial, "OR"))
    ensures r.Ok? && Truthy(initial) && |another| > 0 ==>
      r.value.Obj? && r.value.fields.Keys == Spread(initial).Keys + {"OR"} &&
      forall k :: k in Spread(initial) && k != "OR" ==> r.value.fields[k] == Spread(initial)[k]
    ensures Truthy(initial) && |another| > 0 && !Truthy(Member(initial, "OR")) ==>
      r.Ok? && r.value.fields["OR"] == Lookup(another, "OR")
    ensures Truthy(initial) && |another| > 0 && Truthy(Member(initial, "OR")) &&
            Iterate(Member(initial, "OR")).Some? && Iterate(Lookup(another, "OR")).Some? ==>
      r.Ok? && r.value.fields["OR"] ==
        Arr(Iterate(Member(initial, "OR")).value + Iterate(Lookup(another, "OR")).value)
  {
    if !Truthy(initial) || |another| == 0 then Ok(initial)
    else
      var base := Spread(initial);
      var existing := Member(initial, "OR");
      if !Truthy(existing) then Ok(Obj(base["OR" := Lookup(another, "OR")]))
      else
        match (Iterate(existing), Iterate(Lookup(another, "OR")))
        case (Some(first), Some(second)) => Ok(Obj(base["OR" := Arr(first + second)]))
        case (None, _) => Err(NotIterable("initialWhere.OR"))
        case (_, None) => Err(NotIterable("anotherWhere.OR"))
  }

  /** `generateSearchQuery`: the search conditions as one `OR` clause merged
      into the filter. A falsy filter comes back as it is. Otherwise every
      other key of the filter is kept, and the conditions are attached as
      `OR` when the filter has none yet, or appended after the filter's own
      alternatives; an `OR` that cannot be spread into an array throws. */
  function GenerateSearchQuery(search: string, searchables: seq<string>, where: Json): (r: Result<Json>)
    ensures !Truthy(where) ==> r == Ok(where)
    ensures r.Err? <==>
      (Truthy(where) && Truthy(Member(where, "OR")) && !Member(where, "OR").Arr? && !Member(where, "OR").Str?)
    ensures r.Ok? && Truthy(where) ==>
      r.value.Obj? && r.value.fields.Keys == Spread(where).Keys + {"OR"} &&
      forall k :: k in Spread(where) && k != "OR" ==> r.value.fields[k] == Spread(where)[k]
    ensures Truthy(where) && !Truthy(Member(where, "OR")) ==>
      r == Ok(Obj(Spread(where)["OR" := Arr(SearchConditions(searchables, search))]))
    ensures Truthy(where) && Truthy(Member(where, "OR")) && Iterate(Member(where, "OR")).Some? ==>
      r == Ok(Obj(Spread(where)["OR" :=
        Arr(Iterate(Member(where, "OR")).value + SearchConditions(searchables, search))]))
  {
    var another := map["OR" := Arr(SearchConditions(searchables, search))];
    assert |another| == 1;
    MergeOr(where, another)
  }

  /** Each searchable path of n segments becomes an n-deep single-key chain
      ending in the case-insensitive condition, one per searchable, in
      order. */
  lemma SearchConditionsOfPaths(paths: seq<seq<string>>, search: string)
    requires forall i :: 0 <= i < |paths| ==> |paths[i]| >= 1
    requires forall i, j :: 0 <= i < |paths| && 0 <= j < |paths[i]| ==> '.' !in paths[i][j]
    ensures var searchables := seq(|paths|, i requires 0 <= i < |paths| => Text.Join(paths[i], "."));
      var r := SearchConditions(searchables, search);
      forall i :: 0 <= i < |paths| ==> r[i] == Nest(paths[i], ContainsFilter(search))
  {
    var searchables := seq(|paths|, i requires 0 <= i < |paths| => Text.Join(paths[i], "."));
    forall i | 0 <= i < |paths|
      ensures SearchConditions(searchables, search)[i] == Nest(paths[i], ContainsFilter(search))
    {
      Text.SplitJoin(paths[i], '.');
      NestedSearchIsNest(paths[i], search);
    }
  }

  lemma FlatSearch(name: string, search: string)
    requires '.' !in name
    ensures NestedSearchObject(Text.Split(name, '.'), search) == Obj(map[name := ContainsFilter(search)])
  {
    assert Text.Join([name], ".") == name;
    Text.SplitJoin([name], '.');
  }

  lemma NestedSearch(category: string, name: string, search: string)
    requires '.' !in name && '.' !in category
    ensures NestedSearchObject(Text.Split(category + "." + name, '.'), search)
      == Obj(map[category := Obj(map[name := ContainsFilter(search)])])
  {
    Text.JoinCons(category, [name], ".");
    assert Text.Join([category, name], ".") == category + "." + name;
    Text.SplitJoin([category, name], '.');
    NestedSearchIsNest([category, name], search);
    assert [category, name][1..] == [name];
  }

  /** The shape of `name` and `category.name` searched for one term: an `OR`
      branch of two case-insensitive conditions. */
  lemma SearchExample(name: string, category: string, search: string)
    requires '.' !in name && '.' !in category
    ensures SearchConditions([name, category + "." + name], search)
      == [Obj(map[name := ContainsFilter(search)]),
          Obj(map[category := Obj(map[name := ContainsFilter(search)])])]
  {
    FlatSearch(name, search);
    NestedSearch(category, name, search);
  }

  /** Search applies when `search` is a non-empty string and a searchables
      array is given; an empty array counts as given. */
  predicate Searching(p: Params, searchables: Option<seq<string>>)
  {
    Given(p.search) && searchables.Some?
  }

  // ---------------------------------------------------------------------
  // Composition and metadata

  /** Everything `paginate` does before it calls the store. */
  function Compose(o: Options): (r: Result<Plan>)
    ensures r.Err? <==>
      || ApplySoftDelete(o.where, o.params).Err?
      || ComposeOrder(o.orderBy, o.params).Err?
      || (ApplySoftDelete(o.where, o.params).Ok? && Searching(o.params, o.searchables) &&
          GenerateSearchQuery(o.params.search.value, o.searchables.value,
            ApplySoftDelete(o.where, o.params).value).Err?)
    ensures r.Err? ==> r.error.status == Absent
    ensures o.params.isDeletedToo.Some? && Nullish(o.where) ==> r.Err?
    ensures Given(o.params.order) && !o.orderBy.Arr? && !o.orderBy.Str? ==> r.Err?
    ensures r.Ok? ==> r.value.limit == (if o.params.limit.Some? && o.params.limit.value != 0
      then o.params.limit.value else DEFAULT_LIMIT)
    ensures r.Ok? ==> r.value.page == (if o.params.page.Some? && o.params.page.value != 0
      then o.params.page.value else DEFAULT_PAGE)
    ensures r.Ok? && o.params.loadPreviousPages ==>
      r.value.skip == 0 && r.value.take == r.value.page * r.value.limit
    ensures r.Ok? && !o.params.loadPreviousPages ==>
      r.value.skip == (r.value.page - 1) * r.value.limit && r.value.take == r.value.limit
    ensures r.Ok? ==> r.value.orderBy == ComposeOrder(o.orderBy, o.params).value
    ensures r.Ok? && !Searching(o.params, o.searchables) ==>
      r.value.where == ApplySoftDelete(o.where, o.params).value
    ensures r.Ok? && Searching(o.params, o.searchables) ==>
      Ok(r.value.where) == GenerateSearchQuery(o.params.search.value, o.searchables.value,
        ApplySoftDelete(o.where, o.params).value)
  {
    var p := o.params;
    var limit := Limit(p);
    var page := PageNumber(p);
    var softDeleted :- ApplySoftDelete(o.where, p);
    var orderBy :- ComposeOrder(o.orderBy, p);
    var where :- if Searching(p, o.searchables)
      then GenerateSearchQuery(p.search.value, o.searchables.value, softDeleted)
      else Ok(softDeleted);
    var skip := if p.loadPreviousPages then 0 else (page - 1) * limit;
    var take := if p.loadPreviousPages then page * limit else limit;
    Ok(Plan(where, orderBy, page, limit, skip, take))
  }

  /** `Math.ceil(a / b)` for integers. */
  function CeilDiv(a: int, b: int): (q: int)
    requires b != 0
    ensures b > 0 ==> (q - 1) * b < a <= q * b
    ensures b < 0 ==> q * b <= a < (q - 1) * b
  {
    if b > 0 then -((-a) / b) else -(a / (-b))
  }

  /** The metadata of one page of `data` out of `totalCount` rows. */
  function PagedView(p: Params, plan: Plan, data: seq<Json>, totalCount: int): (v: PageView)
    requires plan.limit != 0
    ensures v.currentPage == p.page
    ensures v.previousPage.Some? <==> plan.page > 1
    ensures v.previousPage.Some? ==> v.previousPage.value == plan.page - 1
    ensures v.nextPage.Some? <==> plan.skip + |data| < totalCount
    ensures v.nextPage.Some? ==> v.nextPage.value == plan.page + 1
    ensures v.count == |data| && v.totalCount == totalCount && v.result == data
    ensures plan.limit > 0 ==> (v.totalPages - 1) * plan.limit < totalCount <= v.totalPages * plan.limit
    ensures plan.limit < 0 ==> v.totalPages * plan.limit <= totalCount < (v.totalPages - 1) * plan.limit
  {
    PageView(
      p.page,
      if plan.page > 1 then Some(plan.page - 1) else None,
      if plan.skip + |data| < totalCount then Some(plan.page + 1) else None,
      |data|,
      totalCount,
      CeilDiv(totalCount, plan.limit),
      data)
  }

  /** The metadata of "all" mode: one page holding every row. */
  function AllView(data: seq<Json>): PageView
  {
    PageView(Some(1), None, None, |data|, |data|, 1, data)
  }

  /** `paginate`, with the rows and the count the fake store answers. In
      "all" mode one `findMany` without a window is made; otherwise a
      windowed `findMany` and a `count` over the same filter. */
  function Paginate(o: Options, data: seq<Json>, totalCount: nat): (r: Result<PageRun>)
    ensures r.Err? <==> Compose(o).Err?
    ensures r.Ok? ==> |r.value.calls| == (if o.params.all then 1 else 2)
    ensures r.Ok? ==> var find, plan := r.value.calls[0], Compose(o).value;
      && find.target == Delegate(o.model) && find.op == FindMany
      && {"where", "include", "orderBy"} <= find.args.Keys
      && find.args["where"] == plan.where
      && find.args["orderBy"] == plan.orderBy
      && find.args["include"] == o.includes
    ensures r.Ok? && o.params.all ==>
      && r.value.calls[0].args.Keys == {"where", "include", "orderBy"}
      && r.value.view == PageView(Some(1), None, None, |data|, |data|, 1, data)
    ensures r.Ok? && !o.params.all ==> var find, plan := r.value.calls[0], Compose(o).value;
      && find.args.Keys == {"where", "include", "orderBy", "skip", "select", "take"}
      && find.args["skip"] == Num(plan.skip)
      && find.args["take"] == Num(plan.take)
      && find.args["select"] == (if Truthy(o.includes) then Absent else o.select)
      && r.value.calls[1] == Call(Delegate(o.model), Count, map["where" := plan.where])
      && r.value.view == PagedView(o.params, plan, data, totalCount)
  {
    var plan :- Compose(o);
    if o.params.all then Ok(AllRun(o, plan, data)) else Ok(PagedRun(o, plan, data, totalCount))
  }

  /** The store traffic of "all" mode for a composed plan. */
  function AllRun(o: Options, plan: Plan, data: seq<Json>): (x: PageRun)
    ensures |x.calls| == 1 && x.calls[0].target == Delegate(o.model) && x.calls[0].op == FindMany
    ensures x.calls[0].args.Keys == {"where", "include", "orderBy"}
    ensures x.calls[0].args["where"] == plan.where && x.calls[0].args["orderBy"] == plan.orderBy
    ensures x.calls[0].args["include"] == o.includes
    ensures x.view == PageView(Some(1), None, None, |data|, |data|, 1, data)
  {
    var find := Call(Delegate(o.model), FindMany,
      map["where" := plan.where, "include" := o.includes, "orderBy" := plan.orderBy]);
    PageRun([find], AllView(data))
  }

  /** The store traffic of paged mode for a composed plan. */
  function PagedRun(o: Options, plan: Plan, data: seq<Json>, totalCount: nat): (x: PageRun)
    requires plan.limit != 0
    ensures |x.calls| == 2 && x.calls[0].target == Delegate(o.model) && x.calls[0].op == FindMany
    ensures x.calls[0].args.Keys == {"where", "include", "orderBy", "skip", "select", "take"}
    ensures x.calls[0].args["where"] == plan.where && x.calls[0].args["orderBy"] == plan.orderBy
    ensures x.calls[0].args["include"] == o.includes
    ensures x.calls[0].args["skip"] == Num(plan.skip) && x.calls[0].args["take"] == Num(plan.take)
    ensures x.calls[0].args["select"] == (if Truthy(o.includes) then Absent else o.select)
    ensures x.calls[1] == Call(Delegate(o.model), Count, map["where" := plan.where])
    ensures x.view == PagedView(o.params, plan, data, totalCount)
  {
    var find := Call(Delegate(o.model), FindMany,
      map["where" := plan.where, "include" := o.includes, "orderBy" := plan.orderBy,
          "skip" := Num(plan.skip), "select" := if Truthy(o.includes) then Absent else o.select,
          "take" := Num(plan.take)]);
    var count := Call(Delegate(o.model), Count, map["where" := plan.where]);
    PageRun([find, count], PagedView(o.params, plan, data, totalCount))
  }

  function Min(a: int, b: int): int { if a <= b then a else b }
  function Max(a: int, b: int): int { if a >= b then a else b }

  /** A store whose page and count agree: the page holds the rows of the
      window that exist. */
  predicate ConsistentPage(plan: Plan, data: seq<Json>, totalCount: nat)
  {
    |data| == Min(plan.take, Max(0, totalCount - plan.skip))
  }

  /** When the page and the count agree, a next page is announced exactly
      when the current page is before the last one. This holds with and
      without `load_previous_pages`, since in both modes the window ends at
      `page * limit`. */
  lemma NextPageIffBeforeLast(o: Options, data: seq<Json>, totalCount: nat)
    requires !o.params.all
    requires Compose(o).Ok?
    requires Compose(o).value.page >= 1 && Compose(o).value.limit >= 1
    requires ConsistentPage(Compose(o).value, data, totalCount)
    ensures Paginate(o, data, totalCount).value.view.nextPage.Some?
        <==> Compose(o).value.page < Paginate(o, data, totalCount).value.view.totalPages
  {
    var plan := Compose(o).value;
    var v := Paginate(o, data, totalCount).value.view;
    var page, limit := plan.page, plan.limit;
    assert plan.skip + plan.take == page * limit;
    assert v.nextPage.Some? <==> plan.skip + |data| < totalCount;
    assert plan.skip + |data| < totalCount <==> page * limit < totalCount;
    CeilBound(totalCount, limit, page, v.totalPages);
  }

  lemma CeilBound(total: int, limit: int, page: int, pages: int)
    requires limit >= 1
    requires (pages - 1) * limit < total <= pages * limit
    ensures page * limit < total <==> page < pages
  {
    if page < pages {
      assert page <= pages - 1;
      assert page * limit <= (pages - 1) * limit;
    } else {
      assert page * limit >= pages * limit;
    }
  }

  /** Without `load_previous_pages`, page `n + 1` starts exactly where page
      `n` ends: consecutive pages neither overlap nor leave a gap. */
  lemma PagesTile(o: Options)
    requires Compose(o).Ok? && !o.params.loadPreviousPages
    requires o.params.page.Some? && o.params.page.value >= 1
    ensures var next := o.(params := o.params.(page := Some(o.params.page.value + 1)));
      Compose(next).Ok? && Compose(next).value.skip == Compose(o).value.skip + Compose(o).value.take
      && Compose(next).value.take == Compose(o).value.take
  {
    var next := o.(params := o.params.(page := Some(o.params.page.value + 1)));
    assert Compose(next).Ok? by {
      assert ApplySoftDelete(next.where, next.params) == ApplySoftDelete(o.where, o.params);
      assert ComposeOrder(next.orderBy, next.params) == ComposeOrder(o.orderBy, o.params);
    }
    var a, b := Compose(o).value, Compose(next).value;
    assert b.page == a.page + 1 && b.limit == a.limit;
    NextPageStep(a.page, a.limit);
  }

  lemma NextPageStep(page: int, limit: int)
    ensures (page + 1 - 1) * limit == (page - 1) * limit + limit
  {
  }

  /** With `load_previous_pages` the window starts at the first row and ends
      where the same page ends without it: it holds every page up to this one. */
  lemma PreviousPagesWindow(o: Options)
    requires Compose(o).Ok? && o.params.loadPreviousPages
    ensures var single := o.(params := o.params.(loadPreviousPages := false));
      Compose(single).Ok? && Compose(o).value.skip == 0
      && Compose(o).value.take == Compose(single).value.skip + Compose(single).value.take
  {
    var single := o.(params := o.params.(loadPreviousPages := false));
    assert Compose(single).Ok? by {
      assert ApplySoftDelete(single.where, single.params) == ApplySoftDelete(o.where, o.params);
      assert ComposeOrder(single.orderBy, single.params) == ComposeOrder(o.orderBy, o.params);
    }
  }

  /** Without a `page` parameter the current page is reported as absent, and
      `page=0` is reported as 0 although the first page is fetched. */
  lemma CurrentPageEchoesParameter(o: Options, data: seq<Json>, totalCount: nat)
    requires !o.params.all && Paginate(o, data, totalCount).Ok?
    requires o.params.page == None || o.params.page == Some(0)
    ensures Paginate(o, data, totalCount).value.view.currentPage == o.params.page
    ensures Compose(o).value.page == 1
    ensures Paginate(o, data, totalCount).value.view.previousPage == None
  {
  }

  /** 25 rows, 10 per page, second page of 10 rows: previous 1, next 3,
      3 pages. */
  lemma MetadataExample(data: seq<Json>)
    requires |data| == 10
    ensures var o := Options("product", Obj(map[]), Absent, Absent, Arr([]),
        Params(Some(2), Some(10), false, None, None, false, None, false), None);
      var v := Paginate(o, data, 25).value.view;
      v.previousPage == Some(1) && v.nextPage == Some(3) && v.totalPages == 3 && v.count == 10
  {
    var o := Options("product", Obj(map[]), Absent, Absent, Arr([]),
      Params(Some(2), Some(10), false, None, None, false, None, false), None);
    var plan := Compose(o).value;
    assert plan.skip == 10;
    var v := Paginate(o, data, 25).value.view;
    assert (v.totalPages - 1) * 10 < 25 <= v.totalPages * 10;
  }
}

=== FILE: response.dfy ===
/**
 The response interceptor: every handler result is wrapped in the
 `{error, statusCode, message, data}` envelope unless it is binary or
 already an envelope, and every thrown error is turned into the error
 envelope.
 */
module Response {
  import opened Values
  import opened Exceptions
  import Text

  const SUCCESS := "Success"
  const INTERNAL_SERVER_ERROR := 500

  /** A handler result: a `Buffer`, or any other value. */
  datatype Body = Binary(bytes: seq<bv8>) | Plain(value: Json)

  /** `data && typeof data === 'object' && 'statusCode' in data`: arrays
      are objects too but carry no `statusCode` key. */
  predicate AlreadyFormatted(data: Json)
  {
    data.Obj? && "statusCode" in data.fields
  }

  /** `data?.message || 'Success'` */
  function SuccessMessage(data: Json): (m: Json)
    ensures Truthy(m)
    ensures Truthy(Member(data, "message")) ==> m == Member(data, "message")
    ensures !Truthy(Member(data, "message")) ==> m == Str(SUCCESS)
  {
    Or(Member(data, "message"), Str(SUCCESS))
  }

  function Envelope(isError: bool, statusCode: Json, message: Json, data: Json): Json
  {
    Obj(map["error" := Bool(isError), "statusCode" := statusCode, "message" := message,
            "data" := data])
  }

  /** The success mapping; `statusCode` is the HTTP response's status. */
  function OnSuccess(body: Body, statusCode: Json): (r: Body)
    ensures body.Binary? ==> r == body
    ensures body.Plain? && AlreadyFormatted(body.value) ==> r == body
    ensures body.Plain? && !AlreadyFormatted(body.value) ==>
      r == Plain(Envelope(false, statusCode, SuccessMessage(body.value),
                          if Truthy(body.value) then body.value else Null))
    ensures r.Plain? ==> AlreadyFormatted(r.value) || r == body
  {
    match body
    case Binary(_) => body
    case Plain(data) =>
      if Truthy(data) && AlreadyFormatted(data) then body
      else Plain(Envelope(false, statusCode, SuccessMessage(data), Or(data, Null)))
  }

  /** Wrapping is idempotent: an envelope already carries `statusCode`. */
  lemma WrapIdempotent(body: Body, statusCode: Json, laterStatus: Json)
    ensures OnSuccess(OnSuccess(body, statusCode), laterStatus) == OnSuccess(body, statusCode)
  {
  }

  /** A falsy result is wrapped with `data: null` and the default message. */
  lemma FalsyDataBecomesNull(data: Json, statusCode: Json)
    requires !Truthy(data)
    ensures OnSuccess(Plain(data), statusCode)
         == Plain(Envelope(false, statusCode, Str(SUCCESS), Null))
  {
  }

  /** The error message: an array `response.message` joined with ", ",
      otherwise `response.message`, falling back to the error's own
      message. */
  function ErrorMessage(e: Exception): (m: Json)
    ensures Member(e.response, "message").Arr? ==>
      m == Str(JoinElements(Member(e.response, "message").items, ", "))
    ensures !Member(e.response, "message").Arr? && Truthy(Member(e.response, "message")) ==>
      m == Member(e.response, "message")
    ensures !Truthy(Member(e.response, "message")) ==> m == e.message
  {
    var fromResponse := Member(e.response, "message");
    if fromResponse.Arr? then Str(JoinElements(fromResponse.items, ", "))
    else Or(fromResponse, e.message)
  }

  /** The error mapping: the envelope that is thrown, with status
      `error.status || 500`. */
  function OnError(e: Exception): (r: Json)
    ensures r.Obj? && r.fields.Keys == {"error", "statusCode", "message", "data"}
    ensures r.fields["error"] == Bool(true) && r.fields["data"] == Null
    ensures r.fields["statusCode"] == (if Truthy(e.status) then e.status else Num(INTERNAL_SERVER_ERROR))
    ensures r.fields["message"] == ErrorMessage(e)
  {
    Envelope(true, Or(e.status, Num(INTERNAL_SERVER_ERROR)), ErrorMessage(e), Null)
  }

  /** An `HttpException` thrown with a message and a status reaches the
      client as exactly that message and status. */
  lemma HttpExceptionEnvelope(message: string, status: int)
    requires status != 0
    ensures OnError(HttpException(message, status)) == Envelope(true, Num(status), Str(message), Null)
  {
  }

  /** A runtime TypeError carries no status and is reported as a 500. */
  lemma TypeErrorEnvelope(message: string)
    ensures OnError(TypeError(message)) == Envelope(true, Num(500), Str(message), Null)
  {
  }

  /** Validation messages `[m1, m2]` are reported as `"m1, m2"`. */
  lemma ValidationMessagesJoined(status: Json, m1: string, m2: string, message: Json)
    ensures OnError(Exception(status, Obj(map["message" := Arr([Str(m1), Str(m2)])]), message))
              .fields["message"] == Str(m1 + ", " + m2)
  {
    var items := [Str(m1), Str(m2)];
    var texts := seq(|items|, i requires 0 <= i < |items| =>
      if Nullish(items[i]) then "" else ToText(items[i]));
    assert texts == [m1, m2];
    Text.JoinCons(m1, [m2], ", ");
  }
}

=== FILE: slug.dfy ===
/**
 The slug builder. On ASCII text the pipeline is: lower-case, trim, turn
 each whitespace run into '-', drop every character outside `[A-Za-z0-9_-]`,
 then collapse each run of '-' into one. (Canonical decomposition and the
 removal of combining marks change nothing in ASCII text.)
 */
module Slug {
  import opened Values
  import Text

  predicate IsAscii(s: string)
  {
    forall i :: 0 <= i < |s| ==> s[i] < 128 as char
  }

  /** `\s` on ASCII: tab, line feed, vertical tab, form feed, carriage
      return and space. */
  predicate IsSpace(c: char)
  {
    c == ' ' || '\t' <= c <= '\r'
  }

  predicate IsUpper(c: char)
  {
    'A' <= c <= 'Z'
  }

  /** `[\w-]` */
  predicate IsWordOrHyphen(c: char)
  {
    'a' <= c <= 'z' || IsUpper(c) || '0' <= c <= '9' || c == '_' || c == '-'
  }

  /** The characters a slug is made of: `[a-z0-9_-]`. */
  predicate IsSlugChar(c: char)
  {
    'a' <= c <= 'z' || '0' <= c <= '9' || c == '_' || c == '-'
  }

  predicate NoUpper(s: string)
  {
    forall i :: 0 <= i < |s| ==> !IsUpper(s[i])
  }

  predicate WordChars(s: string)
  {
    forall i :: 0 <= i < |s| ==> IsWordOrHyphen(s[i])
  }

  function LowerChar(c: char): char
  {
    if IsUpper(c) then (c as int + 32) as char else c
  }

  /** `toLowerCase` on ASCII. */
  function Lower(s: string): (r: string)
    ensures |r| == |s|
    ensures NoUpper(r)
    ensures forall i :: 0 <= i < |r| ==> !IsUpper(s[i]) ==> r[i] == s[i]
    ensures forall i :: 0 <= i < |r| ==> IsUpper(s[i]) ==> 'a' <= r[i] <= 'z'
    ensures forall i :: 0 <= i < |r| ==> IsUpper(s[i]) ==> r[i] as int == s[i] as int + 32
  {
    seq(|s|, i requires 0 <= i < |s| => LowerChar(s[i]))
  }

  /** The two kinds of run the pipeline collapses into a single '-':
      whitespace (`/\s+/g`) and hyphens (`/--+/g`). */
  datatype RunKind = Whitespace | Hyphens

  predicate InRun(kind: RunKind, c: char)
  {
    match kind
    case Whitespace => IsSpace(c)
    case Hyphens => c == '-'
  }

  /** Where the run of `kind` characters starting at `i` ends. */
  function SkipRun(s: string, kind: RunKind, i: nat): (j: nat)
    requires i <= |s|
    ensures i <= j <= |s|
    ensures forall k :: i <= k < j ==> InRun(kind, s[k])
    ensures j < |s| ==> !InRun(kind, s[j])
    decreases |s| - i
  {
    if i < |s| && InRun(kind, s[i]) then SkipRun(s, kind, i + 1) else i
  }

  /** Where `s` stops being whitespace, scanning back from `j` but not past
      `lo`. */
  function SkipSpacesBack(s: string, lo: nat, j: nat): (i: nat)
    requires lo <= j <= |s|
    ensures lo <= i <= j
    ensures forall k :: i <= k < j ==> IsSpace(s[k])
    ensures i > lo ==> !IsSpace(s[i - 1])
    decreases j
  {
    if j > lo && IsSpace(s[j - 1]) then SkipSpacesBack(s, lo, j - 1) else j
  }

  /** `trim`: `s` cut into leading whitespace, a middle with no whitespace
      at either end, and trailing whitespace; the middle is returned. */
  function Trim(s: string): (r: string)
    ensures var a := SkipRun(s, Whitespace, 0); a + |r| <= |s| && r == s[a..a + |r|]
    ensures forall k :: 0 <= k < SkipRun(s, Whitespace, 0) ==> IsSpace(s[k])
    ensures forall k :: SkipRun(s, Whitespace, 0) + |r| <= k < |s| ==> IsSpace(s[k])
    ensures |r| > 0 ==> !IsSpace(r[0]) && !IsSpace(r[|r| - 1])
  {
    var start := SkipRun(s, Whitespace, 0);
    s[start..SkipSpacesBack(s, start, |s|)]
  }

  /** Text with no whitespace at either end is its own trim. */
  lemma TrimFixed(s: string)
    requires |s| > 0 ==> !IsSpace(s[0]) && !IsSpace(s[|s| - 1])
    ensures Trim(s) == s
  {
  }

  /** Every character of the run kind is '-'. */
  predicate RunsMarked(s: string, kind: RunKind)
  {
    forall i :: 0 <= i < |s| ==> s[i] == '-' || !InRun(kind, s[i])
  }

  /** Each maximal run of `kind` characters replaced by a single '-'. */
  function CollapseRuns(s: string, kind: RunKind): (r: string)
    ensures |s| > 0 ==> |r| > 0 && r[0] == (if InRun(kind, s[0]) then '-' else s[0])
    decreases |s|
  {
    if |s| == 0 then ""
    else if InRun(kind, s[0]) then "-" + CollapseRuns(s[SkipRun(s, kind, 1)..], kind)
    else [s[0]] + CollapseRuns(s[1..], kind)
  }

  /** After collapsing, every character of the run kind is '-', and no
      character is introduced that the input did not allow: no capital
      letter where there was none, nothing outside `[\w-]` where there was
      nothing. */
  lemma {:induction false} CollapseCharset(s: string, kind: RunKind)
    ensures RunsMarked(CollapseRuns(s, kind), kind)
    ensures NoUpper(s) ==> NoUpper(CollapseRuns(s, kind))
    ensures WordChars(s) ==> WordChars(CollapseRuns(s, kind))
    decreases |s|
  {
    if |s| > 0 {
      var rest := if InRun(kind, s[0]) then s[SkipRun(s, kind, 1)..] else s[1..];
      CollapseCharset(rest, kind);
      var r, tail := CollapseRuns(s, kind), CollapseRuns(rest, kind);
      assert r == [r[0]] + tail;
      assert forall i :: 1 <= i < |r| ==> r[i] == tail[i - 1];
      assert NoUpper(s) ==> NoUpper(rest) by {
        assert forall i :: 0 <= i < |rest| ==> rest[i] == s[i + |s| - |rest|];
      }
      assert WordChars(s) ==> WordChars(rest) by {
        assert forall i :: 0 <= i < |rest| ==> rest[i] == s[i + |s| - |rest|];
      }
    }
  }

  /** No two consecutive '-'. */
  predicate NoDoubleHyphen(s: string)
  {
    forall i :: 0 <= i < |s| - 1 ==> !(s[i] == '-' && s[i + 1] == '-')
  }

  /** Collapsing hyphen runs leaves no two '-' side by side. */
  lemma {:induction false} CollapseLeavesNoPair(s: string)
    ensures NoDoubleHyphen(CollapseRuns(s, Hyphens))
    decreases |s|
  {
    if |s| > 0 {
      var rest := if s[0] == '-' then s[SkipRun(s, Hyphens, 1)..] else s[1..];
      CollapseLeavesNoPair(rest);
      var tail := CollapseRuns(rest, Hyphens);
      var r := CollapseRuns(s, Hyphens);
      assert r == [r[0]] + tail;
      assert forall i :: 1 <= i < |r| ==> r[i] == tail[i - 1];
      assert |tail| > 0 && s[0] == '-' ==> tail[0] != '-';
    }
  }

  /** Text whose `kind` characters are all '-' and never adjacent. */
  predicate SingleRuns(s: string, kind: RunKind)
  {
    (forall i :: 0 <= i < |s| ==> InRun(kind, s[i]) ==> s[i] == '-') &&
    (forall i :: 0 <= i < |s| - 1 ==> !(InRun(kind, s[i]) && InRun(kind, s[i + 1])))
  }

  /** Such text is left as it is. */
  lemma {:induction false} CollapseSingleRuns(s: string, kind: RunKind)
    requires SingleRuns(s, kind)
    ensures CollapseRuns(s, kind) == s
    decreases |s|
  {
    if |s| > 0 {
      assert SingleRuns(s[1..], kind) by {
        assert forall i :: 0 <= i < |s| - 1 ==> s[1..][i] == s[i + 1];
      }
      CollapseSingleRuns(s[1..], kind);
      if InRun(kind, s[0]) {
        assert |s| == 1 || !InRun(kind, s[1]);
        assert SkipRun(s, kind, 1) == 1;
      }
      assert s == [s[0]] + s[1..];
    }
  }

  /** Where a run ends does not depend on the text after it, as long as
      that text does not continue the run. */
  lemma {:induction false} SkipRunConcat(a: string, b: string, kind: RunKind, i: nat)
    requires i <= |a|
    requires SkipRun(a, kind, i) < |a| || |b| == 0 || !InRun(kind, b[0])
    ensures SkipRun(a + b, kind, i) == SkipRun(a, kind, i)
    decreases |a| - i
  {
    if i < |a| {
      assert (a + b)[i] == a[i];
      if InRun(kind, a[i]) {
        SkipRunConcat(a, b, kind, i + 1);
      }
    } else if |b| > 0 {
      assert (a + b)[i] == b[0];
    }
  }

  lemma CollapseKeptHead(s: string, kind: RunKind)
    requires |s| > 0 && !InRun(kind, s[0])
    ensures CollapseRuns(s, kind) == [s[0]] + CollapseRuns(s[1..], kind)
  {
  }

  lemma CollapseRunHead(s: string, kind: RunKind)
    requires |s| > 0 && InRun(kind, s[0])
    ensures CollapseRuns(s, kind) == "-" + CollapseRuns(s[SkipRun(s, kind, 1)..], kind)
  {
  }

  /** Collapsing works piece by piece across any boundary that does not
      fall inside a run. */
  lemma {:induction false} CollapseSplit(a: string, b: string, kind: RunKind)
    requires |a| == 0 || |b| == 0 || !InRun(kind, a[|a| - 1]) || !InRun(kind, b[0])
    ensures CollapseRuns(a + b, kind) == CollapseRuns(a, kind) + CollapseRuns(b, kind)
    decreases |a|
  {
    if |a| == 0 {
      assert a + b == b;
    } else if !InRun(kind, a[0]) {
      CollapseSplitKept(a, b, kind);
    } else {
      CollapseSplitRun(a, b, kind);
    }
  }

  lemma {:induction false} CollapseSplitKept(a: string, b: string, kind: RunKind)
    requires |a| > 0 && !InRun(kind, a[0])
    requires |b| == 0 || !InRun(kind, a[|a| - 1]) || !InRun(kind, b[0])
    ensures CollapseRuns(a + b, kind) == CollapseRuns(a, kind) + CollapseRuns(b, kind)
    decreases |a|, 0
  {
    var s := a + b;
    assert s[0] == a[0];
    assert s[1..] == a[1..] + b;
    CollapseKeptHead(s, kind);
    CollapseKeptHead(a, kind);
    CollapseSplit(a[1..], b, kind);
  }

  lemma {:induction false} CollapseSplitRun(a: string, b: string, kind: RunKind)
    requires |a| > 0 && InRun(kind, a[0])
    requires |b| == 0 || !InRun(kind, a[|a| - 1]) || !InRun(kind, b[0])
    ensures CollapseRuns(a + b, kind) == CollapseRuns(a, kind) + CollapseRuns(b, kind)
    decreases |a|, 0
  {
    var s := a + b;
    var j := SkipRun(a, kind, 1);
    assert SkipRun(s, kind, 1) == j by {
      assert j == |a| ==> InRun(kind, a[|a| - 1]);
      SkipRunConcat(a, b, kind, 1);
    }
    var x, y := CollapseRuns(a[j..], kind), CollapseRuns(b, kind);
    assert CollapseRuns(s, kind) == "-" + (x + y) by {
      RunHeadOfConcat(a, b, kind, j);
      var rest := a[j..];
      assert |rest| > 0 ==> rest[|rest| - 1] == a[|a| - 1];
      assert |rest| < |a|;
      assert |rest| == 0 || |b| == 0 || !InRun(kind, rest[|rest| - 1]) || !InRun(kind, b[0]);
      CollapseSplit(rest, b, kind);
    }
    assert CollapseRuns(a, kind) == "-" + x by {
      CollapseRunHead(a, kind);
    }
    assert "-" + (x + y) == ("-" + x) + y;
  }

  lemma RunHeadOfConcat(a: string, b: string, kind: RunKind, j: nat)
    requires |a| > 0 && InRun(kind, a[0]) && j <= |a| && SkipRun(a + b, kind, 1) == j
    ensures CollapseRuns(a + b, kind) == "-" + CollapseRuns(a[j..] + b, kind)
  {
    var s := a + b;
    assert s[0] == a[0];
    CollapseRunHead(s, kind);
    assert s[j..] == a[j..] + b;
  }

  /** A character outside the runs is kept in place, and the text on each
      side of it is collapsed on its own. */
  lemma CollapseAroundKept(a: string, x: char, b: string, kind: RunKind)
    requires !InRun(kind, x)
    ensures CollapseRuns(a + [x] + b, kind) == CollapseRuns(a, kind) + [x] + CollapseRuns(b, kind)
  {
    var t := [x] + b;
    assert a + [x] + b == a + t;
    CollapseSplit(a, t, kind);
    assert t[1..] == b;
    CollapseKeptHead(t, kind);
  }

  /** A non-empty run on its own becomes a single '-'. */
  lemma CollapseRunAlone(s: string, kind: RunKind)
    requires |s| > 0 && forall i :: 0 <= i < |s| ==> InRun(kind, s[i])
    ensures CollapseRuns(s, kind) == "-"
  {
    assert SkipRun(s, kind, 1) == |s|;
  }

  /** Text with no character of the run kind is left as it is. */
  lemma CollapseNoRun(s: string, kind: RunKind)
    requires forall i :: 0 <= i < |s| ==> !InRun(kind, s[i])
    ensures CollapseRuns(s, kind) == s
  {
    CollapseSingleRuns(s, kind);
  }

  /** `replace(/[^\w-]+/g, '')`: every character outside `[\w-]` removed. */
  function KeepWordChars(s: string): (r: string)
    ensures WordChars(r)
    ensures NoUpper(s) ==> NoUpper(r)
    ensures |s| > 0 && IsWordOrHyphen(s[0]) ==> |r| > 0 && r[0] == s[0]
    ensures WordChars(s) ==> r == s
    decreases |s|
  {
    if |s| == 0 then ""
    else
      var rest := KeepWordChars(s[1..]);
      assert forall i :: 1 <= i < |s| ==> s[1..][i - 1] == s[i];
      if IsWordOrHyphen(s[0]) then [s[0]] + rest else rest
  }

  /** Removal works piece by piece: what survives of `a + b` is what
      survives of `a` followed by what survives of `b`. */
  lemma {:induction false} KeepWordCharsConcat(a: string, b: string)
    ensures KeepWordChars(a + b) == KeepWordChars(a) + KeepWordChars(b)
    decreases |a|
  {
    if |a| == 0 {
      assert a + b == b;
    } else {
      assert (a + b)[0] == a[0];
      assert (a + b)[1..] == a[1..] + b;
      KeepWordCharsConcat(a[1..], b);
    }
  }

  /** One character survives exactly when it is in `[\w-]`. */
  lemma KeepWordCharsOne(c: char)
    ensures KeepWordChars([c]) == if IsWordOrHyphen(c) then [c] else []
  {
    assert [c][1..] == [];
  }

  /** `slugify` on ASCII text: only `[a-z0-9_-]`, hence no whitespace, and
      never `--`. */
  function Slugify(text: string): (slug: string)
    requires IsAscii(text)
    ensures forall i :: 0 <= i < |slug| ==> IsSlugChar(slug[i])
    ensures NoDoubleHyphen(slug)
  {
    var lowered := Lower(text);
    var trimmed := Trim(lowered);
    var dashed := CollapseRuns(trimmed, Whitespace);
    var words := KeepWordChars(dashed);
    assert NoUpper(trimmed);
    CollapseCharset(trimmed, Whitespace);
    CollapseCharset(words, Hyphens);
    CollapseLeavesNoPair(words);
    CollapseRuns(words, Hyphens)
  }

  /** Text made of slug characters with no `--`. */
  predicate IsSlug(s: string)
  {
    (forall i :: 0 <= i < |s| ==> IsSlugChar(s[i])) && NoDoubleHyphen(s)
  }

  /** A slug has no whitespace and only single hyphens. */
  lemma SlugRuns(slug: string)
    requires IsSlug(slug)
    ensures SingleRuns(slug, Whitespace) && SingleRuns(slug, Hyphens)
  {
    forall i | 0 <= i < |slug|
      ensures !InRun(Whitespace, slug[i])
      ensures InRun(Hyphens, slug[i]) ==> slug[i] == '-'
    {
      assert IsSlugChar(slug[i]);
    }
  }

  lemma LowerFixed(s: string)
    requires NoUpper(s)
    ensures Lower(s) == s
  {
    assert forall i :: 0 <= i < |s| ==> Lower(s)[i] == s[i];
  }

  lemma KeepFixed(s: string)
    requires WordChars(s)
    ensures KeepWordChars(s) == s
  {
  }

  /** Every stage of the pipeline leaves a slug as it is. */
  lemma SlugIsFixed(slug: string)
    requires IsSlug(slug)
    ensures IsAscii(slug) && Slugify(slug) == slug
  {
    assert IsAscii(slug);
    LowerFixed(slug);
    assert |slug| > 0 ==> IsSlugChar(slug[0]) && IsSlugChar(slug[|slug| - 1]);
    TrimFixed(slug);
    SlugRuns(slug);
    CollapseSingleRuns(slug, Whitespace);
    KeepFixed(slug);
    CollapseSingleRuns(slug, Hyphens);
  }

  /** A slug is its own slug. */
  lemma SlugifyIdempotent(text: string)
    requires IsAscii(text)
    ensures IsAscii(Slugify(text))
    ensures Slugify(Slugify(text)) == Slugify(text)
  {
    SlugIsFixed(Slugify(text));
  }

  /** Leading hyphens are kept: trimming only removes whitespace, and it
      happens before punctuation is dropped. */
  lemma LeadingHyphenKept(text: string)
    requires IsAscii(text) && |text| > 0 && text[0] == '-'
    ensures |Slugify(text)| > 0 && Slugify(text)[0] == '-'
  {
    var lowered := Lower(text);
    assert lowered[0] == '-';
    assert SkipRun(lowered, Whitespace, 0) == 0;
  }

  /** `"--x"` collapses to `"-x"`. */
  lemma DoubleHyphenCollapses(x: char)
    requires x != '-'
    ensures CollapseRuns(['-', '-', x], Hyphens) == ['-', x]
  {
    var t := ['-', '-', x];
    assert SkipRun(t, Hyphens, 1) == 2;
    assert t[2..] == [x];
    assert [x][1..] == [];
    assert CollapseRuns([x], Hyphens) == [x];
  }

  /** `"- x"` turns its whitespace into a second '-': `"--x"`. */
  lemma SpaceBecomesHyphen(space: char, x: char)
    requires IsSpace(space) && !IsSpace(x)
    ensures CollapseRuns(['-', space, x], Whitespace) == ['-', '-', x]
  {
    var t := ['-', space, x];
    var u := [space, x];
    assert t[1..] == u;
    assert SkipRun(u, Whitespace, 1) == 1;
    assert u[1..] == [x];
    assert [x][1..] == [];
    assert CollapseRuns([x], Whitespace) == [x];
    assert CollapseRuns(u, Whitespace) == ['-', x];
  }

  /** The pipeline, stage by stage. */
  lemma SlugifyStages(text: string, lowered: string, trimmed: string, dashed: string, words: string)
    requires IsAscii(text)
    requires lowered == Lower(text) && trimmed == Trim(lowered)
    requires dashed == CollapseRuns(trimmed, Whitespace) && words == KeepWordChars(dashed)
    ensures Slugify(text) == CollapseRuns(words, Hyphens)
  {
  }

  /** A hyphen followed by whitespace and a letter becomes the hyphen and
      the letter: the whitespace turns into a second '-' that is then
      collapsed, and trimming happens first, so the leading '-' survives. */
  lemma HyphenSpaceExample(text: string)
    requires |text| == 3 && text[0] == '-' && IsSpace(text[1]) && 'a' <= text[2] <= 'z'
    ensures Slugify(text) == [text[0], text[2]]
  {
    var space, x := text[1], text[2];
    var dashed := ['-', '-', x];
    KeepFixed(dashed);
    DoubleHyphenCollapses(x);
    assert IsAscii(text);
    assert text == ['-', space, x];
    SpaceBecomesHyphen(space, x);
    LowerFixed(text);
    TrimFixed(text);
    SlugifyStages(text, text, text, dashed, dashed);
  }

  /** A non-empty word of ASCII letters. */
  predicate Letters(w: string)
  {
    |w| > 0 && forall i :: 0 <= i < |w| ==> 'a' <= w[i] <= 'z' || IsUpper(w[i])
  }

  lemma LowerConcat(a: string, b: string)
    ensures Lower(a + b) == Lower(a) + Lower(b)
  {
    assert forall i :: 0 <= i < |a + b| ==> Lower(a + b)[i] == (Lower(a) + Lower(b))[i];
  }

  /** The lower-cased letters of a word. */
  lemma LowerLetters(w: string)
    requires Letters(w)
    ensures LowerWord(Lower(w))
  {
  }

  /** A non-empty word of lower-case ASCII letters. */
  predicate LowerWord(w: string)
  {
    |w| > 0 && forall i :: 0 <= i < |w| ==> 'a' <= w[i] <= 'z'
  }

  /** Punctuation after two words joined by '-' is dropped. */
  lemma TwoWordsKeep(l1: string, l2: string, p: char)
    requires LowerWord(l1) && LowerWord(l2) && !IsWordOrHyphen(p)
    ensures KeepWordChars(l1 + "-" + l2 + [p]) == l1 + "-" + l2
  {
    var joined := l1 + "-" + l2;
    KeepWordCharsConcat(joined, [p]);
    KeepWordCharsOne(p);
    assert WordChars(joined) by {
      forall i | 0 <= i < |joined| ensures IsWordOrHyphen(joined[i]) {
        if i < |l1| { assert joined[i] == l1[i]; }
        else if i > |l1| { assert joined[i] == l2[i - |l1| - 1]; }
      }
    }
    KeepFixed(joined);
  }

  /** The single '-' between two words stays. */
  lemma TwoWordsHyphen(l1: string, l2: string)
    requires LowerWord(l1) && LowerWord(l2)
    ensures CollapseRuns(l1 + "-" + l2, Hyphens) == l1 + "-" + l2
  {
    var tail := "-" + l2;
    assert l1 + "-" + l2 == l1 + tail;
    CollapseSplit(l1, tail, Hyphens);
    CollapseSplit("-", l2, Hyphens);
    CollapseNoRun(l1, Hyphens);
    CollapseNoRun(l2, Hyphens);
    CollapseRunAlone("-", Hyphens);
  }

  /** A gap of one or more whitespace characters. */
  predicate Gap(gap: string)
  {
    |gap| > 0 && forall i :: 0 <= i < |gap| ==> IsSpace(gap[i])
  }

  /** The whitespace stage on two words around a gap: the gap becomes '-'. */
  lemma TwoWordsGap(l1: string, gap: string, l2: string, p: char)
    requires LowerWord(l1) && Gap(gap) && LowerWord(l2) && !IsSpace(p)
    ensures CollapseRuns(l1 + gap + l2 + [p], Whitespace) == l1 + "-" + l2 + [p]
  {
    var rest := l2 + [p];
    assert forall i :: 0 <= i < |rest| ==> !IsSpace(rest[i]) by {
      forall i | 0 <= i < |rest| ensures !IsSpace(rest[i]) {
        if i < |l2| { assert rest[i] == l2[i]; }
      }
    }
    assert l1 + gap + l2 + [p] == l1 + (gap + rest);
    CollapseSplit(l1, gap + rest, Whitespace);
    CollapseSplit(gap, rest, Whitespace);
    CollapseNoRun(l1, Whitespace);
    CollapseNoRun(rest, Whitespace);
    CollapseRunAlone(gap, Whitespace);
    assert l1 + ("-" + rest) == l1 + "-" + l2 + [p];
  }

  /** Lower-casing two words around a gap and a punctuation mark. */
  lemma TwoWordsLower(w1: string, gap: string, w2: string, p: char)
    requires Letters(w1) && Gap(gap) && Letters(w2) && !IsWordOrHyphen(p)
    ensures Lower(w1 + gap + w2 + [p]) == Lower(w1) + gap + Lower(w2) + [p]
  {
    LowerConcat(w1 + gap + w2, [p]);
    LowerConcat(w1 + gap, w2);
    LowerConcat(w1, gap);
    LowerFixed(gap);
    LowerFixed([p]);
  }

  lemma TwoWordsAscii(w1: string, gap: string, w2: string, p: char)
    requires Letters(w1) && Gap(gap) && Letters(w2) && p < 128 as char
    ensures IsAscii(w1 + gap + w2 + [p])
  {
    var text := w1 + gap + w2 + [p];
    forall i | 0 <= i < |text| ensures text[i] < 128 as char {
      if i < |w1| { assert text[i] == w1[i]; }
      else if i < |w1| + |gap| { assert text[i] == gap[i - |w1|]; }
      else if i < |w1| + |gap| + |w2| { assert text[i] == w2[i - |w1| - |gap|]; }
    }
  }

  /** The shape of `"Hello  World!"` becoming `"hello-world"`: two words
      around a whitespace gap, followed by punctuation, give the lower-cased
      words joined by one '-'. */
  lemma TwoWordsExample(w1: string, gap: string, w2: string, p: char)
    requires Letters(w1) && Gap(gap) && Letters(w2)
    requires p < 128 as char && !IsWordOrHyphen(p) && !IsSpace(p)
    ensures IsAscii(w1 + gap + w2 + [p])
    ensures Slugify(w1 + gap + w2 + [p]) == Lower(w1) + "-" + Lower(w2)
  {
    var text := w1 + gap + w2 + [p];
    TwoWordsAscii(w1, gap, w2, p);
    var l1, l2 := Lower(w1), Lower(w2);
    LowerLetters(w1);
    LowerLetters(w2);
    TwoWordsLower(w1, gap, w2, p);
    var lowered := l1 + gap + l2 + [p];
    assert lowered[0] == l1[0] && lowered[|lowered| - 1] == p;
    TrimFixed(lowered);
    TwoWordsGap(l1, gap, l2, p);
    TwoWordsKeep(l1, l2, p);
    TwoWordsHyphen(l1, l2);
    SlugifyStages(text, lowered, lowered, l1 + "-" + l2 + [p], l1 + "-" + l2);
  }

  /** Lower-casing is character by character. */
  lemma LowerEach(w: string, l: string)
    requires |w| == |l| && forall i :: 0 <= i < |w| ==> LowerChar(w[i]) == l[i]
    ensures Lower(w) == l
  {
  }

  lemma HelloWorldPieces()
    ensures Letters("Hello") && Letters("World") && Gap("  ")
    ensures "Hello  World!" == "Hello" + "  " + "World" + ['!']
  {
  }

  /** `"Hello  World!"` becomes `"hello-world"`. */
  lemma HelloWorld()
    ensures IsAscii("Hello  World!") && Slugify("Hello  World!") == "hello-world"
  {
    HelloWorldPieces();
    TwoWordsExample("Hello", "  ", "World", '!');
    LowerEach("Hello", "hello");
    LowerEach("World", "world");
    assert "hello" + "-" + "world" == "hello-world";
  }

  /** The text a value is slugified from: `value.toString()`. */
  predicate AsciiText(v: Json)
  {
    IsAscii(ToText(v))
  }

  function SlugifyValue(v: Json): (slug: string)
    requires AsciiText(v)
    ensures forall i :: 0 <= i < |slug| ==> IsSlugChar(slug[i])
  {
    Slugify(ToText(v))
  }

  /** Slugifying a slug again changes nothing. */
  lemma SlugValueIdempotent(v: Json)
    requires AsciiText(v)
    ensures AsciiText(Str(SlugifyValue(v)))
    ensures SlugifyValue(Str(SlugifyValue(v))) == SlugifyValue(v)
  {
    SlugifyIdempotent(ToText(v));
  }

  /** Every listed key whose value is truthy holds text the model covers. */
  predicate AsciiAtKeys(data: map<string, Json>, keys: seq<string>)
  {
    forall k :: k in data && k in keys && Truthy(data[k]) ==> AsciiText(data[k])
  }

  /** The value `slugifyObject` leaves at `k` once the keys in `done`
      have been processed. */
  function Slugged(data: map<string, Json>, done: seq<string>, k: string): Json
    requires k in data && (k in done && Truthy(data[k]) ==> AsciiText(data[k]))
  {
    if k in done && Truthy(data[k]) then Str(SlugifyValue(data[k])) else data[k]
  }

  /** `result` is `data` with the keys of `done` processed. */
  predicate SluggedUpTo(data: map<string, Json>, done: seq<string>, result: map<string, Json>)
    requires AsciiAtKeys(data, done)
  {
    result.Keys == data.Keys && forall k :: k in result ==> result[k] == Slugged(data, done, k)
  }

  /** Processing one more key extends the prefix that has been handled;
      a key seen before is slugified again, which changes nothing. */
  lemma SlugifyStep(data: map<string, Json>, done: seq<string>, key: string,
                    result: map<string, Json>, next: map<string, Json>)
    requires AsciiAtKeys(data, done + [key])
    requires AsciiAtKeys(data, done) && SluggedUpTo(data, done, result)
    requires key in result && Truthy(result[key]) ==>
      AsciiText(result[key]) && next == result[key := Str(SlugifyValue(result[key]))]
    requires !(key in result && Truthy(result[key])) ==> next == result
    ensures SluggedUpTo(data, done + [key], next)
  {
    forall k | k in next
      ensures next[k] == Slugged(data, done + [key], k)
    {
      assert k in done + [key] <==> k in done || k == key;
      if k == key && key in result && Truthy(result[key]) && key in done && Truthy(data[key]) {
        SlugValueIdempotent(data[key]);
      }
    }
  }

  /** `slugifyObject`: a copy of `data` in which each listed key with a
      truthy value holds the slug of that value; every other key keeps its
      value, and no key is added. A key listed twice is slugified twice,
      which changes nothing. */
  method SlugifyObject(data: map<string, Json>, keys: seq<string>) returns (result: map<string, Json>)
    requires AsciiAtKeys(data, keys)
    ensures result.Keys == data.Keys
    ensures forall k :: k in result ==>
      result[k] == (if k in keys && Truthy(data[k]) then Str(SlugifyValue(data[k])) else data[k])
  {
    result := data;
    var n := 0;
    while n < |keys|
      invariant 0 <= n <= |keys|
      invariant AsciiAtKeys(data, keys[..n])
      invariant SluggedUpTo(data, keys[..n], result)
    {
      var key := keys[n];
      assert keys[..n + 1] == keys[..n] + [key];
      var next := result;
      if key in result && Truthy(result[key]) {
        if key in keys[..n] && Truthy(data[key]) {
          SlugValueIdempotent(data[key]);
        }
        next := result[key := Str(SlugifyValue(result[key]))];
      }
      SlugifyStep(data, keys[..n], key, result, next);
      result := next;
      n := n + 1;
    }
    assert keys[..n] == keys;
    assert forall k :: k in result ==> result[k] == Slugged(data, keys, k);
  }
}

=== FILE: store.dfy ===
/**
 The calls the services make on the store client, as records: which
 operation, on which target, with which argument object. A fake store
 answers each call with an outcome chosen by the caller of the model.
 */
module Store {
  import opened Values
  import opened Exceptions

  /** `prisma[modelName]`, the delegate bound to one model, or the client's
      own transaction-aware methods, which take the model name as an
      argument. */
  datatype Target = Delegate(model: string) | Client

  datatype Op = Create | FindMany | FindUnique | FindFirst | Update | Delete | Count | GroupBy

  datatype Call = Call(target: Target, op: Op, args: map<string, Json>)

  /** What the fake store does with a call: resolve with a value or reject. */
  datatype Outcome = Returns(value: Json) | Throws(cause: Exception)
}

=== FILE: text.dfy ===
/**
 Character-level string helpers with the semantics of the JavaScript string
 methods the services call: `split` on a one-character separator, `join`,
 `includes`, and the decimal rendering of integers used by `toString`.
 */
module Text {

  /** `parts.join(sep)`: the empty array joins to "", one part is itself. */
  function Join(parts: seq<string>, sep: string): string
  {
    if |parts| == 0 then ""
    else if |parts| == 1 then parts[0]
    else parts[0] + sep + Join(parts[1..], sep)
  }

  /** Number of occurrences of `c` in `s`. */
  function Count(s: string, c: char): nat
  {
    if |s| == 0 then 0 else (if s[0] == c then 1 else 0) + Count(s[1..], c)
  }

  /** A character is counted exactly when it occurs. */
  lemma {:induction false} CountPositive(s: string, c: char)
    ensures Count(s, c) > 0 <==> c in s
    decreases |s|
  {
    if |s| > 0 {
      CountPositive(s[1..], c);
      assert s == [s[0]] + s[1..];
    }
  }

  /** `s.split(sep)` for a one-character separator: always at least one
      part, no part contains the separator, joining the parts gives `s`
      back, and there is one part more than there are separators. */
  function Split(s: string, sep: char): (parts: seq<string>)
    ensures |parts| >= 1
    ensures |parts| == Count(s, sep) + 1
    ensures forall i :: 0 <= i < |parts| ==> sep !in parts[i]
    ensures Join(parts, [sep]) == s
    decreases |s|
  {
    if |s| == 0 then [""]
    else
      var rest := Split(s[1..], sep);
      if s[0] == sep then
        assert Join([""] + rest, [sep]) == [sep] + Join(rest, [sep]) by {
          assert ([""] + rest)[1..] == rest;
        }
        assert s == [s[0]] + s[1..];
        [""] + rest
      else
        var parts := [[s[0]] + rest[0]] + rest[1..];
        assert parts[1..] == rest[1..];
        assert s == [s[0]] + s[1..];
        assert forall i :: 1 <= i < |parts| ==> parts[i] == rest[i];
        parts
  }

  lemma JoinCons(head: string, tail: seq<string>, sep: string)
    requires |tail| >= 1
    ensures Join([head] + tail, sep) == head + sep + Join(tail, sep)
  {
    assert ([head] + tail)[1..] == tail;
  }

  /** A decomposition of `s` into separator-free parts whose join is `s`
      is the one `Split` computes. */
  lemma {:induction false} SplitUnique(s: string, sep: char, parts: seq<string>)
    requires |parts| >= 1
    requires forall i :: 0 <= i < |parts| ==> sep !in parts[i]
    requires Join(parts, [sep]) == s
    ensures parts == Split(s, sep)
    decreases |s|
  {
    if |parts| >= 2 {
      JoinCons(parts[0], parts[1..], [sep]);
      assert parts == [parts[0]] + parts[1..];
    }
    if |s| == 0 {
      assert |parts| == 1;
    } else if |parts[0]| > 0 {
      var first := parts[0][1..];
      var parts' := [first] + parts[1..];
      assert s[0] == parts[0][0];
      assert sep !in first by {
        assert forall k :: 0 <= k < |first| ==> first[k] == parts[0][k + 1];
      }
      forall i | 0 <= i < |parts'|
        ensures sep !in parts'[i]
      {
        if i > 0 {
          assert parts'[i] == parts[i];
        }
      }
      if |parts| >= 2 {
        JoinCons(first, parts[1..], [sep]);
        assert parts[0] == [parts[0][0]] + first;
      } else {
        assert parts[0] == [parts[0][0]] + first;
      }
      assert Join(parts', [sep]) == s[1..];
      SplitUnique(s[1..], sep, parts');
      assert parts'[0] == first && parts'[1..] == parts[1..];
      assert s[0] != sep by {
        assert parts[0][0] in parts[0];
      }
      assert parts == [[s[0]] + first] + parts[1..];
    } else {
      assert |parts| >= 2;
      assert s == [sep] + Join(parts[1..], [sep]);
      assert s[1..] == Join(parts[1..], [sep]);
      forall i | 0 <= i < |parts| - 1
        ensures sep !in parts[1..][i]
      {
        assert parts[1..][i] == parts[i + 1];
      }
      SplitUnique(s[1..], sep, parts[1..]);
      assert parts[0] == "";
    }
  }

  /** `split` undoes `join`: splitting the join of separator-free parts
      gives those parts back. */
  lemma SplitJoin(parts: seq<string>, sep: char)
    requires |parts| >= 1
    requires forall i :: 0 <= i < |parts| ==> sep !in parts[i]
    ensures Split(Join(parts, [sep]), sep) == parts
  {
    SplitUnique(Join(parts, [sep]), sep, parts);
  }

  /** `t` occurs in `s` at position `i`. */
  ghost predicate OccursAt(s: string, t: string, i: int)
  {
    0 <= i && i + |t| <= |s| && s[i..i + |t|] == t
  }

  /** `s.includes(t)`: true exactly when `t` occurs somewhere in `s`. */
  predicate Includes(s: string, t: string)
    ensures Includes(s, t) <==> exists i :: OccursAt(s, t, i)
    decreases |s|
  {
    if |t| > |s| then false
    else if s[..|t|] == t then
      assert OccursAt(s, t, 0);
      true
    else
      var rest := Includes(s[1..], t);
      IncludesShift(s, t);
      rest
  }

  lemma IncludesShift(s: string, t: string)
    requires |t| <= |s| && s[..|t|] != t
    ensures (exists i :: OccursAt(s, t, i)) <==> (exists i :: OccursAt(s[1..], t, i))
  {
    if exists i :: OccursAt(s, t, i) {
      var i :| OccursAt(s, t, i);
      assert i != 0;
      assert s[1..][i - 1..i - 1 + |t|] == s[i..i + |t|];
      assert OccursAt(s[1..], t, i - 1);
    }
    if exists i :: OccursAt(s[1..], t, i) {
      var i :| OccursAt(s[1..], t, i);
      assert s[1..][i..i + |t|] == s[i + 1..i + 1 + |t|];
      assert OccursAt(s, t, i + 1);
    }
  }

  function DigitChar(d: nat): (c: char)
    requires d < 10
    ensures '0' <= c <= '9'
    ensures c == '0' <==> d == 0
  {
    "0123456789"[d]
  }

  predicate IsDigit(c: char)
  {
    '0' <= c <= '9'
  }

  /** Decimal rendering of a natural number, without leading zeros. */
  function NatToDecimal(n: nat): (r: string)
    ensures |r| >= 1
    ensures forall i :: 0 <= i < |r| ==> IsDigit(r[i])
    ensures r[0] == '0' <==> n == 0
    ensures |r| == 1 <==> n < 10
    decreases n
  {
    if n < 10 then [DigitChar(n)] else NatToDecimal(n / 10) + [DigitChar(n % 10)]
  }

  /** Decimal rendering of an integer, as `String(n)` gives it: a leading
      '-' exactly for negative numbers, then the digits of the magnitude. */
  function IntToDecimal(n: int): (r: string)
    ensures |r| >= 1
    ensures r[0] == '-' <==> n < 0
    ensures n < 0 ==> |r| >= 2 && r[1] != '0'
    ensures n >= 0 && |r| > 1 ==> r[0] != '0'
    ensures forall i :: (if n < 0 then 1 else 0) <= i < |r| ==> IsDigit(r[i])
    ensures DecimalValue(if n < 0 then r[1..] else r) == (if n < 0 then -n else n)
  {
    if n < 0 then
      DecimalRoundTrip(-n);
      var r := "-" + NatToDecimal(-n);
      assert r[1..] == NatToDecimal(-n);
      r
    else
      DecimalRoundTrip(n);
      NatToDecimal(n)
  }

  /** The value a string of digits denotes. */
  function DecimalValue(s: string): int
    requires forall i :: 0 <= i < |s| ==> IsDigit(s[i])
  {
    if |s| == 0 then 0
    else DecimalValue(s[..|s| - 1]) * 10 + ((s[|s| - 1] as int) - ('0' as int))
  }

  lemma DigitValue(d: nat)
    requires d < 10
    ensures (DigitChar(d) as int) - ('0' as int) == d
  {
  }

  /** Reading back the decimal rendering gives the number. */
  lemma {:induction false} DecimalRoundTrip(n: nat)
    ensures DecimalValue(NatToDecimal(n)) == n
    decreases n
  {
    var r := NatToDecimal(n);
    if n < 10 {
      DigitValue(n);
      assert r[..0] == "";
    } else {
      DecimalRoundTrip(n / 10);
      DigitValue(n % 10);
      assert r[..|r| - 1] == NatToDecimal(n / 10);
    }
  }

  /** Distinct numbers have distinct renderings, so index keys never clash. */
  lemma DecimalInjective()
    ensures forall a: nat, b: nat :: NatToDecimal(a) == NatToDecimal(b) ==> a == b
  {
    forall a: nat, b: nat | NatToDecimal(a) == NatToDecimal(b)
      ensures a == b
    {
      DecimalRoundTrip(a);
      DecimalRoundTrip(b);
    }
  }
}

=== FILE: values.dfy ===
/**
 The JavaScript values the services pass around — filters, orderings,
 payloads, request records — as an immutable tree, together with the
 language rules the services lean on: truthiness, `a || b`, `{...x}`,
 property reads and `toString`.
 */
module Values {
  import Text

  datatype Option<+T> = None | Some(value: T)

  /** A JavaScript value. `Absent` is `undefined`; an object may hold a key
      whose value is `Absent`, as `{k: undefined}` does. Key order of
      objects is not modelled. */
  datatype Json =
    | Absent
    | Null
    | Bool(b: bool)
    | Num(n: int)
    | Str(s: string)
    | Arr(items: seq<Json>)
    | Obj(fields: map<string, Json>)

  /** JavaScript truthiness: `undefined`, `null`, `false`, `0` and "" are
      falsy; every array and object, even an empty one, is truthy. */
  predicate Truthy(j: Json)
  {
    match j
    case Absent => false
    case Null => false
    case Bool(b) => b
    case Num(n) => n != 0
    case Str(s) => |s| > 0
    case Arr(_) => true
    case Obj(_) => true
  }

  predicate Nullish(j: Json)
  {
    j.Absent? || j.Null?
  }

  /** `a || b` */
  function Or(a: Json, b: Json): Json
  {
    if Truthy(a) then a else b
  }

  /** `j?.key` for a named property. Only objects carry named properties;
      the names read here (`OR`, `deleted_at`, `message`, `role`, ...) are
      not built-in properties of strings or arrays. */
  function Member(j: Json, key: string): Json
  {
    if j.Obj? && key in j.fields then j.fields[key] else Absent
  }

  /** Reading a key of a plain map the way JavaScript reads a missing
      property: as `undefined`. */
  function Lookup(m: map<string, Json>, key: string): Json
  {
    if key in m then m[key] else Absent
  }

  /** The first `n` elements keyed by their decimal index, the way an
      array's or a string's own properties are named. */
  function IndexKeyed(items: seq<Json>, n: nat): (m: map<string, Json>)
    requires n <= |items|
    ensures forall i :: 0 <= i < n ==> Text.NatToDecimal(i) in m && m[Text.NatToDecimal(i)] == items[i]
    ensures forall k :: k in m ==> exists i :: 0 <= i < n && k == Text.NatToDecimal(i)
    decreases n
  {
    if n == 0 then map[]
    else
      Text.DecimalInjective();
      IndexKeyed(items, n - 1)[Text.NatToDecimal(n - 1) := items[n - 1]]
  }

  /** The own enumerable properties `{...j}` copies: an object's fields, the
      index-keyed elements of an array or characters of a string, and
      nothing for every other value. */
  function Spread(j: Json): (m: map<string, Json>)
    ensures j.Obj? ==> m == j.fields
    ensures !j.Obj? && !j.Arr? && !j.Str? ==> m == map[]
    ensures j.Arr? ==> forall i :: 0 <= i < |j.items| ==>
      Text.NatToDecimal(i) in m && m[Text.NatToDecimal(i)] == j.items[i]
    ensures j.Arr? ==> forall k :: k in m ==> exists i :: 0 <= i < |j.items| && k == Text.NatToDecimal(i)
    ensures j.Str? ==> forall i :: 0 <= i < |j.s| ==>
      Text.NatToDecimal(i) in m && m[Text.NatToDecimal(i)] == Str([j.s[i]])
    ensures j.Str? ==> forall k :: k in m ==> exists i :: 0 <= i < |j.s| && k == Text.NatToDecimal(i)
  {
    match j
    case Obj(fields) => fields
    case Arr(items) => IndexKeyed(items, |items|)
    case Str(s) => IndexKeyed(Iterate(j).value, |s|)
    case _ => map[]
  }

  /** `[...j]`: the elements an array spread contributes, or `None` when the
      value is not iterable (spreading it throws a TypeError). */
  function Iterate(j: Json): (r: Option<seq<Json>>)
    ensures j.Arr? ==> r == Some(j.items)
    ensures r.Some? <==> j.Arr? || j.Str?
    ensures j.Str? ==> r.Some? && |r.value| == |j.s|
    ensures j.Str? ==> forall i :: 0 <= i < |j.s| ==> r.value[i] == Str([j.s[i]])
  {
    match j
    case Arr(items) => Some(items)
    case Str(s) => Some(seq(|s|, i requires 0 <= i < |s| => Str([s[i]])))
    case _ => None
  }

  /** A chain of single-key objects following `path`, with `leaf` innermost:
      `Nest(["b", "c"], x)` is `{b: {c: x}}`. */
  function Nest(path: seq<string>, leaf: Json): (r: Json)
    ensures |path| == 0 ==> r == leaf
    ensures |path| > 0 ==> r.Obj? && r.fields.Keys == {path[0]}
  {
    if |path| == 0 then leaf else Obj(map[path[0] := Nest(path[1..], leaf)])
  }

  /** The value reached by reading the keys of `path` one after another. */
  function Descend(j: Json, path: seq<string>): Json
    decreases |path|
  {
    if |path| == 0 then j else Descend(Member(j, path[0]), path[1..])
  }

  /** Walking down a nest along its own path reaches its leaf. */
  lemma {:induction false} DescendNest(path: seq<string>, leaf: Json)
    ensures Descend(Nest(path, leaf), path) == leaf
  {
    if |path| > 0 {
      DescendNest(path[1..], leaf);
    }
  }

  /** Nests of equal depth are equal only when their paths and leaves are:
      building one loses no information. */
  lemma {:induction false} NestInjective(p: seq<string>, a: Json, q: seq<string>, b: Json)
    requires |p| == |q|
    requires Nest(p, a) == Nest(q, b)
    ensures p == q && a == b
  {
    if |p| > 0 {
      assert p[0] in Nest(q, b).fields.Keys;
      assert p[0] == q[0];
      assert Nest(p[1..], a) == Nest(p, a).fields[p[0]];
      NestInjective(p[1..], a, q[1..], b);
      assert p == [p[0]] + p[1..];
      assert q == [q[0]] + q[1..];
    }
  }

  /** `String(j)` for the values the services convert to text: numbers in
      decimal, arrays as their elements joined with ",", where `null` and
      `undefined` elements contribute nothing. */
  function ToText(j: Json): string
  {
    match j
    case Absent => "undefined"
    case Null => "null"
    case Bool(b) => if b then "true" else "false"
    case Num(n) => Text.IntToDecimal(n)
    case Str(s) => s
    case Arr(items) => JoinElements(items, ",")
    case Obj(_) => "[object Object]"
  }

  /** `items.join(sep)`. */
  function JoinElements(items: seq<Json>, sep: string): string
  {
    Text.Join(seq(|items|, i requires 0 <= i < |items| =>
      if Nullish(items[i]) then "" else ToText(items[i])), sep)
  }
}
